=== FILE: README.md ===
# aj-editor: a Dafny model of the editing core

`editor.py` is a small nano-like terminal text editor written with Python's
`curses`. Its state is a list of lines, a logical cursor (`cursor_y`,
`cursor_x`), a viewport offset, a one-line clipboard, two snapshot stacks for
undo and redo, and a modified flag. Each pass of its main loop clamps the
viewport to the cursor, soft-wraps every line to the text width, draws, finds
the display row that holds the cursor, and handles one key.

This project models that core as pure functions over an immutable state:

- `optional.dfy` (`Optional`): the `Option` type used for Python's failure
  outcomes.
- `strings.dfy` (`Strings`): the Python string operations the editor relies
  on: `in`, `find`, slicing with clamped bounds, `join`, `split`, and
  `replace`, including the empty search term.
- `textfile.dfy` (`TextFile`): loading a file with `str.splitlines` and saving
  it with `'\n'.join`, with the round trips between the two.
- `wrap.dfy` (`Wrap`): `word_wrap`, the flattened display list, and the scan
  that maps the logical cursor to a display row and column.
- `editor.dfy` (`Editor`): the state and one function per command. These are
  the cursor moves, the mouse click, the viewport clamp, the frame, the line
  edits, cut and paste, snapshot undo and redo, search, replace-all, goto-line
  and save.
- `session.dfy` (`Session`): the main loop as a function over a sequence of
  inputs. It has an invariant that every command keeps. It proves that a
  session never fails while the text width is not zero, and that up to 100
  edits are all undone by as many undos.

The loop in `Session` uses the corrected forms of the three operations listed
under "## Findings". The as-written forms stay in `Editor`, and each has a
lemma that shows the fault.

In these places the model follows what the code does:

- Loading uses `str.splitlines`, not a split on `\n`. Every Python line
  boundary splits a line, `\r\n` counts as one boundary, and a final boundary
  adds no empty line.
- Cut on a one-line buffer leaves no line at all. The code does not put back
  an empty line.
- The viewport clamp compares the logical row `cursor_y` with the offset. The
  offset, however, indexes display rows.
- A mouse click adds the offset to the clicked screen row and treats the
  result as a logical row.
- Replace-all with a term that does not occur in its replacement can still
  leave occurrences (`Strings.ReplaceCanLeaveOccurrence`).

## Model

| member | source | states |
|---|---|---|
| Strings.FindFrom | editor.py:296 | the result is -1 or an occurrence at or after the start, and no occurrence lies between the start and it |
| Strings.Find | editor.py:296 | `find` is -1 exactly when the term does not occur; otherwise it is the first occurrence |
| Strings.Contains | editor.py:294 | Python's `t in s` holds for every prefix of `s`, the empty term included, and never for a term longer than `s` |
| Strings.ContainsChar | editor.py:308 | for a one-character term, `t in s` is exactly membership of that character |
| Strings.SliceTo | editor.py:256 | `s[:n]` has length `min(n, len(s))`, and `s[:n] + s[n:] == s` for every `n`, including past the end |
| Strings.SliceFrom | editor.py:256 | `s[n:]` has length `len(s) - n`, or 0 when `n` is past the end |
| Strings.JoinWithEnds | editor.py:280 | `sep.join(parts)` is empty for no parts, starts with the first part followed by the separator when there is a second, and ends with the last part; joining `Split`'s pieces gives the string back |
| Strings.Split | editor.py:309 | a reference for `replace`: joining the pieces with the separator gives the string back, no piece contains the separator, and every piece but the last ends at the first occurrence of the separator after its start, so the cuts are the leftmost non-overlapping occurrences |
| Strings.FirstOccurrenceCut | editor.py:309 | the text before the first occurrence of the separator holds no separator, ends at that occurrence, and with the separator and the remainder makes up the text |
| Strings.Replace | editor.py:309 | a string without the term comes back unchanged |
| Strings.Interleave | editor.py:309 | `s.replace("", r)` starts with `r`, and with an empty `r` gives `s` back |
| Strings.InterleaveLayout | editor.py:309 | `s.replace("", r)` has length `len(s) + (len(s)+1)*len(r)`, with character `k` of `s` right after `k+1` copies of `r` |
| Strings.InterleaveGaps | editor.py:309 | each of the `len(s) + 1` gaps of `s.replace("", r)` holds `r`; with `InterleaveLayout` this fixes every character of the result |
| Strings.ReplaceIsSplitJoin | editor.py:309 | for a non-empty term, `s.replace(f, r) == r.join(s.split(f))` |
| Strings.ReplaceOverlapping | editor.py:309 | `"aaa".replace("aa", "b")` is `"ba"`: an occurrence overlapping one already replaced survives |
| Strings.ReplaceBySelf | editor.py:309 | replacing a non-empty term by itself changes nothing |
| Strings.ReplaceCharRemovesAll | editor.py:309 | replacing one character by text without it leaves no occurrence of it |
| Strings.ReplaceCanLeaveOccurrence | editor.py:309 | `"aabb".replace("ab", "a")` still contains `"ab"`, although `"a"` does not |
| TextFile.SplitLines | editor.py:131 | `splitlines` is empty exactly for the empty text, and no resulting line holds a boundary character |
| TextFile.Load | editor.py:131-133 | the loaded buffer has at least one line, no line holds a boundary, and an empty file gives `[""]` |
| TextFile.Serialize | editor.py:280 | the saved text starts with the first line and a newline when there is a second line, and is empty for an empty buffer or one empty line |
| TextFile.SplitSerialized | editor.py:280 | splitting the saved text of a buffer gives the buffer back when no line holds a line-boundary character and the last line is not empty |
| TextFile.LoadSerialized | editor.py:280 | save then load gives the buffer back when no line holds a line-boundary character, unless the buffer ends in an empty line after other lines |
| TextFile.TrailingNewlineDropped | editor.py:131 | a non-empty text that does not end in a line-boundary character loads to the same buffer with and without a final newline |
| TextFile.SplitLinesTrailingBreak | editor.py:131 | after a non-empty text that does not end in a line-boundary character, a final `\n` adds no element to `splitlines` |
| TextFile.SerializeLoaded | editor.py:131-133 | load then save gives the text back when its only boundaries are `\n` and it does not end with one |
| Wrap.Chunks | editor.py:69 | the pieces join back to the line, each holds 1 to `width` characters, all but the last hold exactly `width`, and there are none only for the empty line |
| Wrap.ChunksLength | editor.py:69 | the line's length is `width` for every piece but the last plus the last piece's length |
| Wrap.WordWrap | editor.py:68-69 | `word_wrap` fails exactly for width 0 and a non-empty line, gives nothing for a negative width, gives `[""]` for width 0 and the empty line, and for a positive width gives at least one piece of at most `width` characters, all but the last full, that join back to the line |
| Wrap.WordWrapCount | editor.py:68-69 | for a positive width there are `ceil(len/width)` pieces (one for a short line), and the full pieces plus the last make up the line's length |
| Wrap.Tag | editor.py:160-162 | each segment of a line is tagged with that line's index |
| Wrap.Flatten | editor.py:158-162 | the display list exists for a positive width, and every segment names an existing line |
| Wrap.FlattenFails | editor.py:158-162 | building the display list fails exactly when the width is 0 and some line is not empty |
| Wrap.FlattenLine | editor.py:158-162 | line `i`'s segments are consecutive in the display list, after those of the earlier lines |
| Wrap.ScanSkips | editor.py:186-192 | the cursor scan passes over segments of other lines unchanged |
| Wrap.ScanFromFinds | editor.py:186-192 | the scan never raises the column; a non-zero index is a segment of the cursor's line long enough for the column left; with no segment of that line it falls back to index 0 and the column unchanged |
| Wrap.LocateFinds | editor.py:186-192 | the same for the scan from the first segment |
| Wrap.ScanChunks | editor.py:186-192 | within the cursor's line, the scan stops at the first segment that holds the remaining column |
| Wrap.LocateInLine | editor.py:186-192 | the scan stops inside the cursor's line, and the column is whole segments before it times the width plus the in-segment column |
| Wrap.CursorPlacement | editor.py:186-192 | for a cursor inside its line, the scan finds a segment of that line and an in-segment column with `cursor_x == k*width + column`, past the first segment only when the column is positive |
| Editor.Open | editor.py:128-136 | the session starts at (0, 0) with offset 0, empty history, empty clipboard and unmodified, on the loaded lines of the file's text or on `[""]` when there is no file |
| Editor.SaveUndo | editor.py:122-126 | `save_undo` pushes the current buffer, drops the oldest snapshot beyond 100, and clears the redo stack |
| Editor.SaveUndoBounded | editor.py:122-126 | the undo stack never exceeds 100 snapshots |
| Editor.Undo | editor.py:338-342 | with a snapshot, undo restores the newest one, keeps the older ones and pushes the current buffer on the redo stack; with none it changes nothing; only the buffer and the two stacks change |
| Editor.Redo | editor.py:343-347 | the mirror of `Undo`: only the buffer and the two stacks change |
| Editor.RedoAfterUndo | editor.py:338-347 | redo right after undo restores the whole state |
| Editor.UndoAfterRedo | editor.py:338-347 | undo right after redo restores the whole state |
| Editor.UndoStrandsCursor | editor.py:338-342 | Enter at the end of `["a"]` then undo leaves the cursor on row 1 of a one-row buffer |
| Editor.NewlineAtEndOfA | editor.py:244-251 | Enter at the end of `["a"]` gives `["a", ""]` with the cursor at (1, 0) |
| Editor.KeepCursorInside | editor.py:338-347 | the clamp puts the cursor inside a non-empty buffer, on the last line when it was below it and on line 0 when above, keeps the row when it exists and cuts the column to the line's end, changes nothing for a cursor already inside, and changes nothing else |
| Editor.UndoKeepingCursor | editor.py:338-342 | undo with the cursor clamped into the restored, non-empty buffer; a cursor already inside the restored buffer stays where it is, as in the original undo |
| Editor.RedoKeepingCursor | editor.py:343-347 | redo with the cursor clamped into the restored, non-empty buffer; a cursor already inside it stays where it is, as in the original redo |
| Editor.UndoKeepingCursorAfterNewline | editor.py:338-342 | with the clamp, undoing that Enter leaves the cursor at (0, 0) inside `["a"]` |
| Editor.MoveUp | editor.py:214-216 | Up goes one row up, stopping at row 0, and the column is kept or cut to the line's end |
| Editor.MoveDown | editor.py:217-219 | Down goes one row down, stopping at the last row, with the same column rule |
| Editor.MoveLeft | editor.py:220-225 | Left goes one column left, from column 0 to the end of the previous line, and does nothing at the start of the buffer |
| Editor.MoveRight | editor.py:226-231 | Right goes one column right, from the end of a line to the start of the next, and does nothing at the end of the buffer |
| Editor.RightUndoesLeft | editor.py:220-231 | Right after Left returns to the same position everywhere but the buffer start |
| Editor.LeftUndoesRight | editor.py:220-231 | Left after Right returns to the same position everywhere but the buffer end |
| Editor.UpAfterDown | editor.py:214-219 | Up after Down returns to the same row, and the column can only shrink |
| Editor.Click | editor.py:204-212 | a click in the text area puts the cursor on the clicked row plus the offset, clamped to 0 above the buffer and to the last row below it, and on the clicked column minus the gutter, clamped to 0 and to the line's end; on an empty buffer only the row is set to 0; a click outside the area does nothing |
| Editor.ClickIsNearest | editor.py:209-210 | the clamped row is the line nearest the clicked logical row, and the clamped column the position of that line nearest the clicked column |
| Editor.ScrollOffset | editor.py:150-153 | after the clamp the cursor's logical row number lies in the window's range of display rows, and the offset is kept when it already did; this need not show the cursor's line (see `Editor.ClampLeavesCursorBelow`) |
| Editor.ScrollIsNearest | editor.py:150-153 | no offset whose range of display rows holds the cursor's row number is closer to the old offset |
| Editor.DisplayRowsBefore | editor.py:150-162 | the cursor's display row is at least its logical row, because every earlier line takes at least one display row |
| Editor.ClampLeavesCursorBelow | editor.py:150-196 | on `["abcdefghij", "x"]` with a one-row text area 5 columns wide and the cursor at (1, 0), the clamp on the logical row gives offset 1, yet the cursor is on display row 2, so the terminal cursor lands on screen row 2, below the only text row |
| Editor.FrameAsWritten | editor.py:150-196 | the frame as written fails exactly when the display list does, keeps the buffer and row, and clamps the viewport to the row |
| Editor.FrameAsWrittenMovesCursor | editor.py:186-192 | as written, a frame moves a cursor past the first segment of its line to a smaller column |
| Editor.FrameAsWrittenOverwrites | editor.py:186-196 | the as-written frame shows the same cell as the corrected one, but stores the shown column as the logical column |
| Editor.FrameAsWrittenMisplacesInsert | editor.py:186-192 | on `["abcdefgh"]` at width 5 with the cursor at column 7, one frame sets the column to 2, so a typed `X` gives `"abXcdefgh"` instead of `"abcdefgXh"` |
| Editor.SampleDisplay | editor.py:158-162 | `"abcdefgh"` at width 5 is displayed as `"abcde"` and `"fgh"` |
| Editor.SampleInserts | editor.py:348-352 | typing `X` into `"abcdefgh"` at columns 2 and 7 |
| Editor.Frame | editor.py:150-196 | the corrected frame changes only the viewport offset, and the cursor's logical row number is in the window's range of display rows |
| Editor.FrameShowsCursor | editor.py:186-196 | the screen cell is on a segment of the cursor's line, within it, at the position of the logical column |
| Editor.Backspace | editor.py:232-243 | Backspace deletes the character before the cursor, joins the line onto the previous one at column 0, and changes only the history at the buffer start; past the line's end it keeps the buffer and the row and moves one column left; it never leaves the cursor off a line |
| Editor.Newline | editor.py:244-251 | Enter splits the line at the cursor into two lines that join back to it, and puts the cursor at the start of the second; past the line's end the line is kept and an empty line follows it |
| Editor.InsertText | editor.py:252-257 | the text lands at the cursor, or at the line's end when the cursor is past it; the other lines are unchanged, and the cursor moves past the text |
| Editor.Tab | editor.py:252-257 | Tab puts four spaces at the cursor, keeping what was before and after it (at the line's end when the cursor is past it), and moves four columns right |
| Editor.InsertChar | editor.py:348-352 | a printable key puts its character at the cursor, keeping what was before and after, or at the line's end when the cursor is past it, and moves one right |
| Editor.BackspaceUndoesInsert | editor.py:232-243 | Backspace right after a typed character restores the buffer and the cursor |
| Editor.BackspaceUndoesNewline | editor.py:232-251 | Backspace right after Enter restores the buffer and the cursor |
| Editor.Cut | editor.py:324-332 | Ctrl-K moves the line into the clipboard, removes it, puts the cursor at column 0 and moves up from the last line; on a one-line buffer no line is left |
| Editor.CutEmptiesBuffer | editor.py:324-332 | cutting the only line of `["abc"]` leaves an empty list, with the cursor on no line |
| Editor.CutKeepingLine | editor.py:324-332 | the corrected cut keeps one empty line when the only line is cut, and is otherwise the original |
| Editor.Paste | editor.py:333-337 | Ctrl-U inserts the clipboard as a new line at the cursor's row (appended past the end), keeping the cursor |
| Editor.CutThenPaste | editor.py:324-337 | cut then paste restores the buffer, unless the cut line was the last of several |
| Editor.CutPasteSwapsLastLines | editor.py:324-337 | cutting the last of several lines then pasting swaps the last two lines |
| Editor.CutKeepingLineThenPaste | editor.py:324-337 | the corrected cut then paste restores the buffer away from the last line |
| Editor.FindRow | editor.py:293-294 | the first row at or after the start whose line contains the term, or none |
| Editor.Search | editor.py:290-301 | a match is found exactly when some row from the cursor's on contains the term; the cursor goes to the first such row, at the first occurrence; otherwise nothing changes |
| Editor.CountHits | editor.py:306-310 | the count is the number of lines containing the term, and 0 exactly when no line does |
| Editor.ReplaceLines | editor.py:306-310 | every line becomes its `replace`, lines without the term are unchanged, and the count is of lines, not occurrences |
| Editor.ReplaceAll | editor.py:302-312 | replace-all saves a snapshot, sets the flag, keeps the line count and the cursor, and changes nothing when the count is 0 |
| Editor.ReplaceAllSplitsLines | editor.py:307-310 | for a non-empty term, each line of the result is the line split at the term and joined with the replacement |
| Editor.ReplaceAllBySelf | editor.py:307-310 | replacing a non-empty term by itself leaves every line unchanged |
| Editor.ReplaceCountsLines | editor.py:306-312 | on `["aa"]`, replacing "a" by "b" reports 1, although "a" occurs twice: the count is of changed lines |
| Editor.Goto | editor.py:313-323 | goto moves to an existing line number, keeping the column where it fits; bad input or an out-of-range number changes nothing |
| Editor.Save | editor.py:270-287 | the text written is the lines joined by newlines, and the flag is cleared only when the write succeeded |
| Editor.SaveThenOpen | editor.py:270-287 | reopening a saved file gives the buffer back when no line holds a line-boundary character, unless the buffer ends in an empty line after other lines |
| Session.OpenSatisfiesInv | editor.py:128-136 | a fresh session satisfies the loop invariant |
| Session.Step | editor.py:202-352 | every key handler keeps the invariant; edits save a snapshot, clear redo and set the flag; undo and redo change the buffer and both stacks exactly as `Undo` and `Redo` do; other keys leave the buffer and history alone |
| Session.Handle | editor.py:204-352 | the dispatch: edits save a snapshot, clear redo and set the flag; undo and redo act as `Undo` and `Redo`; other keys leave buffer and history alone; only Ctrl-K changes the clipboard, to the cut line; the offset is never changed |
| Session.Edit | editor.py:232-352 | every editing key keeps the cursor on a line, saves a snapshot, clears redo and sets the flag; Enter and Ctrl-U add one line; only Ctrl-K changes the clipboard |
| Session.Browse | editor.py:204-323 | the other keys move the cursor at most, except that a save may clear the flag; buffer, history, clipboard and offset are unchanged |
| Session.Iterate | editor.py:138-352 | an iteration fails exactly when the display list does, keeps the invariant, and keeps the cursor's logical row number inside the window's range of display rows, which need not show the cursor's line (see `Editor.ClampLeavesCursorBelow`) |
| Session.Run | editor.py:138-352 | a whole session keeps the invariant |
| Session.RunNeverFails | editor.py:138-352 | with a non-zero text width in every iteration the session never fails, and the buffer is never empty |
| Session.EditsRecordHistory | editor.py:122-126 | after at most 100 edits, the newest snapshots are exactly the buffers the edits were applied to |
| Session.PushRecords | editor.py:122-126 | one more snapshot extends the recorded snapshots by the current buffer |
| Session.Undos | editor.py:338-342 | repeated undo keeps the invariant |
| Session.UndosRestore | editor.py:338-342 | `k` undos restore the `k`-th newest snapshot and keep the older ones |
| Session.EditsThenUndos | editor.py:338-342 | up to 100 edits followed by as many undos give the original buffer back |
| Session.EditClearsRedo | editor.py:122-126 | an edit empties the redo stack, so a redo right after it changes nothing |
| Session.UndoAfterEdit | editor.py:338-342 | undo right after an edit restores the buffer the edit changed |

## Left out

- Drawing: the title, the text area with line numbers, Python keyword highlighting, the status line and the menu (`draw_title`, `draw_menu`, `draw_status`, editor.py:155-184). These only paint the terminal.
- The terminal size and the menu height (editor.py:140-148). The text area's height and width are inputs of each iteration instead.
- Key decoding and `curses.getmouse`. Each key arrives as a decoded `Session.Command` that carries the answers typed at its prompts. A failed `getmouse` arrives as no command.
- Prompts (`prompt`, editor.py:61-66) are parameters of the commands that use them. The model takes answers of any length and content. The source reads at most 60 characters (editor.py:64), and Enter ends the answer, so `\n` and `\r` never occur in it. Form feed and the other line-boundary characters can occur, however, so `TextFile.LoadSerialized` and `Editor.SaveThenOpen` do not cover a buffer after such a replacement.
- `int()` parsing for goto-line is an `Option<int>` input, with `None` for input that `int()` rejects.
- File input and output, the backup rename, and the recent-files list (editor.py:71-82, 128-136, 270-287). Opening takes the file's text or `None`. Saving takes whether the write succeeded and returns the text written. Prompting for a file name is left out.
- Universal-newline translation on reading. It turns `\r\n` and `\r` into `\n`. This does not change the result, since `splitlines` treats all three as one boundary. Decoding bytes to characters is left out.
- Ctrl-X exit (editor.py:258-269). It ends the loop when the buffer is unmodified, or when the confirmation key is Ctrl-X again. Otherwise the confirmation key is read and discarded and the loop goes on with the state unchanged; the model takes that as a `Session.Command.Key` with no effect.
- The Ctrl-Z suspend handling through `termios` (`disable_ctrl_z`, `restore_ctrl_z`) and `main`.
- Status messages are not part of the state.
- The source catches `curses.error` in the text area (editor.py:170-181) and at `stdscr.move` (editor.py:195-198); `draw_status` (editor.py:58-59) and `prompt` (editor.py:61-66) do not catch it, so a terminal too small for them ends the program. Terminal errors are left out.
- Session.Step: it models the corrected loop, and `Session.Iterate` uses the corrected `Editor.Frame`. The as-written undo and redo can leave the cursor below the last row. From there Right, Backspace, Enter, Tab, Ctrl-K and the printable keys index `lines[cursor_y]` and raise IndexError. Up, and Left from column 0, raise as well unless the cursor is exactly one row past the end, since they index the row above it. Down, Ctrl-U, search, replace and goto never raise. After the as-written cut of the only line, Up and Down raise as well. Only the single-command lemmas under "## Findings" show these failures; there is no as-written session.
- Session.RunNeverFails: covers only the modelled frames, whose text width is an input. In the source the text width is the terminal width minus 5 (editor.py:148), and the menu layout (editor.py:144) steps `range` by the terminal width minus 1, which raises ValueError on a terminal one column wide; the menu is left out, so that failure is not modelled.

## Findings

| source | as written | input that shows it | evidently intended | confidence | as-written member | corrected member |
|---|---|---|---|---|---|---|
| editor.py:186-192 | the cursor lookup counts the editor's own `cursor_x` down by the lengths of the line's earlier segments, so after each frame the logical column is replaced by the in-segment column | `["abcdefgh"]`, text width 5, cursor (0, 7): after one frame `cursor_x` is 2, and typing `X` gives `"abXcdefgh"` | count down a local copy and leave the logical cursor alone | not executed | Editor.FrameAsWrittenMisplacesInsert | Editor.FrameShowsCursor |
| editor.py:324-332 | Ctrl-K pops the only line and leaves `lines == []`; the next printable key, Tab, Enter, Right, Up or Down indexes the empty list and raises IndexError | `["abc"]`, Ctrl-K | leave one empty line, as a freshly opened buffer has | not executed | Editor.CutEmptiesBuffer | Editor.CutKeepingLine |
| editor.py:338-347 | undo and redo restore a snapshot but keep the cursor, which can be past the restored buffer's last row | `["a"]`, cursor (0, 1): Enter then Ctrl-Z leaves the cursor on row 1 of `["a"]`, and the next printable key raises IndexError | clamp the cursor into the restored buffer | not executed | Editor.UndoStrandsCursor | Editor.UndoKeepingCursorAfterNewline |

=== FILE: editor.dfy ===
/** The editor session state and one transition per command of the editing
    loop: cursor moves, the viewport clamp, the render-time cursor lookup,
    line edits, cut and paste, snapshot undo and redo, search, replace-all,
    goto-line and the text produced by a save. */
module Editor {
  import opened Optional
  import opened Strings
  import TextFile
  import Wrap

  /** Columns left of the text taken by the line-number gutter. */
  const LineNumberWidth := 5
  /** The most snapshots the undo stack keeps. */
  const HistoryLimit := 100
  /** What the Tab key inserts. */
  const TabSpaces := "    "

  /** The loop's local variables: the buffer, the logical cursor, the index
      of the first display row shown, the cut line, the two snapshot stacks
      and the unsaved-changes flag. */
  datatype State = State(
    lines: seq<string>,
    cursorY: int,
    cursorX: int,
    screenYOffset: int,
    clipboard: string,
    undo: seq<seq<string>>,
    redo: seq<seq<string>>,
    modified: bool)

  function Min(a: int, b: int): int { if a <= b then a else b }
  function Max(a: int, b: int): int { if a >= b then a else b }
  function Abs(a: int): int { if a >= 0 then a else -a }

  /** The cursor is on an existing line at a non-negative column, so a
      command may index `lines[cursorY]`. The column may lie past the end
      of the line (after a paste or an undo): Python slices clamp. */
  predicate OnLine(s: State)
  {
    0 <= s.cursorY < |s.lines| && 0 <= s.cursorX
  }

  /** The cursor lies within its line. */
  predicate Valid(s: State)
  {
    OnLine(s) && s.cursorX <= |s.lines[s.cursorY]|
  }

  /** The session's start: the loaded file's lines, or one empty line when
      there is no file name or the file does not exist (`None`). */
  function Open(contents: Option<string>): (s: State)
    ensures Valid(s) && s.cursorY == 0 && s.cursorX == 0
    ensures s.undo == [] && s.redo == [] && !s.modified && s.clipboard == ""
    ensures forall i :: 0 <= i < |s.lines| ==> TextFile.IsLine(s.lines[i])
    ensures contents == None ==> s.lines == [""]
    ensures contents.Some? ==> s.lines == TextFile.Load(contents.value)
    ensures s.screenYOffset == 0
  {
    var lines := if contents == None then [""] else TextFile.Load(contents.value);
    State(lines, 0, 0, 0, "", [], [], false)
  }

  // ---------------------------------------------------------------------
  // History

  /** `save_undo`: push a snapshot of the buffer, drop the oldest snapshot
      when there are more than `HistoryLimit`, forget the redo stack. */
  function SaveUndo(s: State): (r: State)
    ensures |r.undo| >= 1 && r.undo[|r.undo| - 1] == s.lines
    ensures r.redo == []
    ensures |s.undo| < HistoryLimit ==> |r.undo| == |s.undo| + 1 && r.undo[..|s.undo|] == s.undo
    ensures |s.undo| >= HistoryLimit ==> |r.undo| == |s.undo| && r.undo[..|r.undo| - 1] == s.undo[1..]
    ensures r == s.(undo := r.undo, redo := [])
  {
    var pushed := s.undo + [s.lines];
    if |pushed| > HistoryLimit then
      assert pushed[1..][..|s.undo| - 1] == s.undo[1..];
      s.(undo := pushed[1..], redo := [])
    else
      assert pushed[..|s.undo|] == s.undo;
      s.(undo := pushed, redo := [])
  }

  /** The undo stack never grows past its limit through `SaveUndo`. */
  lemma SaveUndoBounded(s: State)
    requires |s.undo| <= HistoryLimit
    ensures |SaveUndo(s).undo| <= HistoryLimit
    ensures |SaveUndo(s).undo| == Min(|s.undo| + 1, HistoryLimit)
  {
  }

  /** Ctrl-Z as written: move the buffer to the redo stack and restore the
      newest snapshot. The cursor is not touched. */
  function Undo(s: State): (r: State)
    ensures |r.undo| + |r.redo| == |s.undo| + |s.redo|
    ensures s.undo == [] ==> r == s
    ensures s.undo != [] ==> r.lines == s.undo[|s.undo| - 1] && |r.undo| == |s.undo| - 1
    ensures s.undo != [] ==> r.undo == s.undo[..|s.undo| - 1] && r.redo == s.redo + [s.lines]
    ensures r.cursorY == s.cursorY && r.cursorX == s.cursorX && r.modified == s.modified
    ensures r == s.(lines := r.lines, undo := r.undo, redo := r.redo)
  {
    if s.undo == [] then s
    else
      var n := |s.undo| - 1;
      s.(redo := s.redo + [s.lines], lines := s.undo[n], undo := s.undo[..n])
  }

  /** Ctrl-Y as written: the mirror image of `Undo`. */
  function Redo(s: State): (r: State)
    ensures |r.undo| + |r.redo| == |s.undo| + |s.redo|
    ensures s.redo == [] ==> r == s
    ensures s.redo != [] ==> r.lines == s.redo[|s.redo| - 1] && |r.redo| == |s.redo| - 1
    ensures s.redo != [] ==> r.redo == s.redo[..|s.redo| - 1] && r.undo == s.undo + [s.lines]
    ensures r.cursorY == s.cursorY && r.cursorX == s.cursorX && r.modified == s.modified
    ensures r == s.(lines := r.lines, undo := r.undo, redo := r.redo)
  {
    if s.redo == [] then s
    else
      var n := |s.redo| - 1;
      s.(undo := s.undo + [s.lines], lines := s.redo[n], redo := s.redo[..n])
  }

  /** Redo right after an undo restores the whole state. */
  lemma RedoAfterUndo(s: State)
    requires s.undo != []
    ensures Redo(Undo(s)) == s
  {
    var n := |s.undo| - 1;
    assert s.undo[..n] + [s.undo[n]] == s.undo;
  }

  /** Undo right after a redo restores the whole state. */
  lemma UndoAfterRedo(s: State)
    requires s.redo != []
    ensures Undo(Redo(s)) == s
  {
    var n := |s.redo| - 1;
    assert s.redo[..n] + [s.redo[n]] == s.redo;
  }

  /** A restored buffer can be shorter than the one the cursor was in: after
      Enter at the end of `["a"]` and Ctrl-Z, the cursor stays on row 1 of a
      one-row buffer, and the next key that indexes `lines[cursor_y]` (a
      printable character, Tab, Enter, Right, Ctrl-K) raises IndexError. */
  lemma UndoStrandsCursor()
    ensures
      var s := Newline(State(["a"], 0, 1, 0, "", [], [], false));
      var u := Undo(s);
      && s.lines == ["a", ""] && s.cursorY == 1
      && u.lines == ["a"] && u.cursorY == 1 && !OnLine(u)
  {
    NewlineAtEndOfA();
  }

  /** Enter at the end of `["a"]`. */
  lemma NewlineAtEndOfA()
    ensures
      var s := Newline(State(["a"], 0, 1, 0, "", [], [], false));
      s.lines == ["a", ""] && s.cursorY == 1 && s.cursorX == 0 && s.undo == [["a"]]
  {
    var s := State(["a"], 0, 1, 0, "", [], [], false);
    assert SliceFrom("a", 1) == "";
    assert SliceTo("a", 1) == "a";
    var lines := s.lines[0 := "a"];
    assert lines[..1] + [""] + lines[1..] == ["a", ""];
  }

  /** Put the cursor back inside the text: last row at most, end of line at
      most. */
  function KeepCursorInside(s: State): (r: State)
    ensures s.lines != [] ==> Valid(r)
    ensures Valid(s) ==> r == s
    ensures r == s.(cursorY := r.cursorY, cursorX := r.cursorX)
    ensures s.lines != [] && 0 <= s.cursorY < |s.lines| ==> r.cursorY == s.cursorY
    ensures s.lines != [] && s.cursorY >= |s.lines| ==> r.cursorY == |s.lines| - 1
    ensures s.lines != [] && s.cursorY < 0 ==> r.cursorY == 0
    ensures OnLine(s) ==> r.cursorX == Min(s.cursorX, |s.lines[s.cursorY]|)
  {
    if s.lines == [] then s.(cursorY := 0, cursorX := 0)
    else
      var y := Max(0, Min(s.cursorY, |s.lines| - 1));
      s.(cursorY := y, cursorX := Max(0, Min(s.cursorX, |s.lines[y]|)))
  }

  /** Ctrl-Z keeping the cursor on the restored text: as `Undo`, and when a
      snapshot was restored the cursor is clamped into it. */
  function UndoKeepingCursor(s: State): (r: State)
    ensures r.lines == Undo(s).lines && r.undo == Undo(s).undo && r.redo == Undo(s).redo
    ensures r == Undo(s).(cursorY := r.cursorY, cursorX := r.cursorX)
    ensures s.undo != [] && s.undo[|s.undo| - 1] != [] ==> Valid(r)
    ensures s.undo == [] ==> r == s
    ensures Valid(Undo(s)) ==> r == Undo(s)
  {
    if s.undo == [] then s else KeepCursorInside(Undo(s))
  }

  /** Ctrl-Y keeping the cursor on the restored text. */
  function RedoKeepingCursor(s: State): (r: State)
    ensures r.lines == Redo(s).lines && r.undo == Redo(s).undo && r.redo == Redo(s).redo
    ensures r == Redo(s).(cursorY := r.cursorY, cursorX := r.cursorX)
    ensures s.redo != [] && s.redo[|s.redo| - 1] != [] ==> Valid(r)
    ensures s.redo == [] ==> r == s
    ensures Valid(Redo(s)) ==> r == Redo(s)
  {
    if s.redo == [] then s else KeepCursorInside(Redo(s))
  }

  /** With the cursor kept inside, the undo of a newline no longer strands
      it: it lands on the restored last line. */
  lemma UndoKeepingCursorAfterNewline()
    ensures
      var s := Newline(State(["a"], 0, 1, 0, "", [], [], false));
      var u := UndoKeepingCursor(s);
      u.lines == ["a"] && u.cursorY == 0 && u.cursorX == 0 && Valid(u)
  {
    NewlineAtEndOfA();
  }

  // ---------------------------------------------------------------------
  // Cursor moves

  /** Up arrow: one row up, stopping at the first row; the column is kept
      when the new line is long enough and is its end otherwise. */
  function MoveUp(s: State): (r: State)
    requires OnLine(s)
    ensures Valid(r) && r.lines == s.lines
    ensures r.cursorY == if s.cursorY > 0 then s.cursorY - 1 else 0
    ensures r.cursorX == s.cursorX || (r.cursorX == |r.lines[r.cursorY]| < s.cursorX)
    ensures r == s.(cursorY := r.cursorY, cursorX := r.cursorX)
  {
    var y := Max(0, s.cursorY - 1);
    s.(cursorY := y, cursorX := Min(s.cursorX, |s.lines[y]|))
  }

  /** Down arrow: one row down, stopping at the last row; the column as for
      `MoveUp`. */
  function MoveDown(s: State): (r: State)
    requires OnLine(s)
    ensures Valid(r) && r.lines == s.lines
    ensures r.cursorY == if s.cursorY < |s.lines| - 1 then s.cursorY + 1 else s.cursorY
    ensures r.cursorX == s.cursorX || (r.cursorX == |r.lines[r.cursorY]| < s.cursorX)
    ensures r == s.(cursorY := r.cursorY, cursorX := r.cursorX)
  {
    var y := Min(|s.lines| - 1, s.cursorY + 1);
    s.(cursorY := y, cursorX := Min(s.cursorX, |s.lines[y]|))
  }

  /** Left arrow: one column left; from column 0 to the end of the previous
      line; nothing at the start of the buffer. */
  function MoveLeft(s: State): (r: State)
    requires OnLine(s)
    ensures OnLine(r) && (Valid(s) ==> Valid(r)) && r.lines == s.lines
    ensures s.cursorX > 0 ==> r.cursorY == s.cursorY && r.cursorX == s.cursorX - 1
    ensures s.cursorX == 0 && s.cursorY > 0 ==> r.cursorY == s.cursorY - 1 && r.cursorX == |s.lines[s.cursorY - 1]|
    ensures s.cursorX == 0 && s.cursorY == 0 ==> r == s
    ensures r == s.(cursorY := r.cursorY, cursorX := r.cursorX)
  {
    if s.cursorX > 0 then s.(cursorX := s.cursorX - 1)
    else if s.cursorY > 0 then s.(cursorY := s.cursorY - 1, cursorX := |s.lines[s.cursorY - 1]|)
    else s
  }

  /** Right arrow: one column right; from the end of a line (or past it) to
      column 0 of the next line; nothing at the end of the buffer. */
  function MoveRight(s: State): (r: State)
    requires OnLine(s)
    ensures OnLine(r) && (Valid(s) ==> Valid(r)) && r.lines == s.lines
    ensures s.cursorX < |s.lines[s.cursorY]| ==> r.cursorY == s.cursorY && r.cursorX == s.cursorX + 1
    ensures s.cursorX >= |s.lines[s.cursorY]| && s.cursorY < |s.lines| - 1 ==> r.cursorY == s.cursorY + 1 && r.cursorX == 0
    ensures s.cursorX >= |s.lines[s.cursorY]| && s.cursorY == |s.lines| - 1 ==> r == s
    ensures r == s.(cursorY := r.cursorY, cursorX := r.cursorX)
  {
    if s.cursorX < |s.lines[s.cursorY]| then s.(cursorX := s.cursorX + 1)
    else if s.cursorY < |s.lines| - 1 then s.(cursorY := s.cursorY + 1, cursorX := 0)
    else s
  }

  /** Right undoes Left everywhere but at the start of the buffer. */
  lemma RightUndoesLeft(s: State)
    requires Valid(s) && (s.cursorY > 0 || s.cursorX > 0)
    ensures MoveRight(MoveLeft(s)) == s
  {
  }

  /** Left undoes Right everywhere but at the end of the buffer. */
  lemma LeftUndoesRight(s: State)
    requires Valid(s) && (s.cursorY < |s.lines| - 1 || s.cursorX < |s.lines[s.cursorY]|)
    ensures MoveLeft(MoveRight(s)) == s
  {
  }

  /** Up after Down returns to the same row (below the last row); the
      column can only shrink. */
  lemma UpAfterDown(s: State)
    requires Valid(s) && s.cursorY < |s.lines| - 1
    ensures MoveUp(MoveDown(s)).cursorY == s.cursorY
    ensures MoveUp(MoveDown(s)).cursorX <= s.cursorX
  {
  }

  /** A mouse click at screen cell (`mx`, `my`) inside the text area: the
      row is the viewport offset plus the clicked screen row, the column is
      the clicked column minus the gutter, each clamped into the buffer. On
      an empty buffer the row is set to 0 before `lines[0]` raises, and the
      exception is swallowed. */
  function Click(s: State, mx: int, my: int, textHeight: int): (r: State)
    ensures r.lines == s.lines && r == s.(cursorY := r.cursorY, cursorX := r.cursorX)
    ensures !(1 <= my < textHeight + 1) ==> r == s
    ensures 1 <= my < textHeight + 1 && s.lines != [] ==> Valid(r)
    ensures 1 <= my < textHeight + 1 && s.lines != [] && 0 <= s.screenYOffset + my - 1 < |s.lines| ==> r.cursorY == s.screenYOffset + my - 1
    ensures 1 <= my < textHeight + 1 && s.lines != [] && s.screenYOffset + my - 1 >= |s.lines| ==> r.cursorY == |s.lines| - 1
    ensures 1 <= my < textHeight + 1 && s.screenYOffset + my - 1 < 0 ==> r.cursorY == 0
    ensures 1 <= my < textHeight + 1 && s.lines != [] ==>
      && (0 <= mx - LineNumberWidth <= |s.lines[r.cursorY]| ==> r.cursorX == mx - LineNumberWidth)
      && (mx - LineNumberWidth < 0 ==> r.cursorX == 0)
      && (mx - LineNumberWidth > |s.lines[r.cursorY]| ==> r.cursorX == |s.lines[r.cursorY]|)
    ensures 1 <= my < textHeight + 1 && s.lines == [] ==> r == s.(cursorY := 0)
  {
    if !(1 <= my < textHeight + 1) then s
    else
      var y := Max(0, Min(s.screenYOffset + (my - 1), |s.lines| - 1));
      if s.lines == [] then s.(cursorY := y)
      else s.(cursorY := y, cursorX := Max(0, Min(mx - LineNumberWidth, |s.lines[y]|)))
  }

  // ---------------------------------------------------------------------
  // Viewport

  /** The clamp at the top of every frame: scroll up to the cursor's row if
      it is above the window, scroll down just enough if it is below. It
      compares the logical row, not the cursor's wrapped display row. */
  function ScrollOffset(cursorY: int, offset: int, textHeight: int): (r: int)
    ensures textHeight > 0 ==> r <= cursorY < r + textHeight
    ensures offset <= cursorY < offset + textHeight ==> r == offset
  {
    if cursorY < offset then cursorY
    else if cursorY >= offset + textHeight then cursorY - textHeight + 1
    else offset
  }

  /** The clamp scrolls as little as possible: no window that shows the
      cursor's row is nearer the old offset. */
  lemma ScrollIsNearest(cursorY: int, offset: int, textHeight: int, other: int)
    requires textHeight > 0 && other <= cursorY < other + textHeight
    ensures Abs(ScrollOffset(cursorY, offset, textHeight) - offset) <= Abs(other - offset)
  {
  }

  /** A click lands on the buffer position nearest the clicked cell: no
      line is nearer the clicked logical row, and no column of the chosen
      line is nearer the clicked column. */
  lemma ClickIsNearest(s: State, mx: int, my: int, textHeight: int, row: int, column: int)
    requires 1 <= my < textHeight + 1 && s.lines != []
    requires 0 <= row < |s.lines|
    ensures Abs(Click(s, mx, my, textHeight).cursorY - (s.screenYOffset + my - 1))
            <= Abs(row - (s.screenYOffset + my - 1))
    ensures 0 <= column <= |s.lines[Click(s, mx, my, textHeight).cursorY]| ==>
      Abs(Click(s, mx, my, textHeight).cursorX - (mx - LineNumberWidth)) <= Abs(column - (mx - LineNumberWidth))
  {
  }

  /** Each earlier line takes at least one display row, so the cursor's
      display row is at least its logical row: a clamp on the logical row
      can leave the cursor below the window when earlier lines wrap. */
  lemma {:induction false} DisplayRowsBefore(lines: seq<string>, width: int, i: nat)
    requires width > 0 && i <= |lines|
    ensures Wrap.Flatten(lines[..i], width).Some?
    ensures |Wrap.Flatten(lines[..i], width).value| >= i
    decreases i
  {
    if i > 0 {
      DisplayRowsBefore(lines, width, i - 1);
      assert lines[..i][..i - 1] == lines[..i - 1];
    }
  }

  /** What a frame shows: the state after the frame and the screen cell
      where the terminal cursor is put. */
  datatype View = View(state: State, screenRow: int, screenColumn: int)

  /** The frame as written: clamp the viewport, build the display list, and
      look up the cursor's segment with a scan that counts `cursor_x` down
      by the lengths of the line's earlier segments — in the editor's own
      `cursor_x`, so the remaining in-segment column replaces the logical
      column in the state. `None` when building the display list raises. */
  function FrameAsWritten(s: State, textHeight: int, textWidth: int): (r: Option<View>)
    ensures r == None <==> Wrap.Flatten(s.lines, textWidth) == None
    ensures r.Some? ==> r.value.state.lines == s.lines && r.value.state.cursorY == s.cursorY
    ensures r.Some? && textHeight > 0 ==>
      r.value.state.screenYOffset <= s.cursorY < r.value.state.screenYOffset + textHeight
  {
    var offset := ScrollOffset(s.cursorY, s.screenYOffset, textHeight);
    match Wrap.Flatten(s.lines, textWidth)
    case None => None
    case Some(segs) =>
      var p := Wrap.Locate(segs, s.cursorY, s.cursorX);
      Some(View(s.(screenYOffset := offset, cursorX := p.column),
                p.index - offset + 1, p.column + LineNumberWidth))
  }

  /** As written, a frame moves a cursor that is past the first segment of
      its line to the left: the logical column becomes the in-segment
      column. */
  lemma FrameAsWrittenMovesCursor(s: State, textHeight: int, textWidth: int)
    requires Valid(s) && textWidth > 0 && s.cursorX > textWidth
    ensures FrameAsWritten(s, textHeight, textWidth).Some?
    ensures FrameAsWritten(s, textHeight, textWidth).value.state.cursorX < s.cursorX
  {
    FrameShowsCursor(s, textHeight, textWidth);
    FrameAsWrittenOverwrites(s, textHeight, textWidth);
    var v := Frame(s, textHeight, textWidth).value;
    var row := v.state.screenYOffset + v.screenRow - 1;
    var column := v.screenColumn - LineNumberWidth;
    assert column <= textWidth;
  }

  /** The frame as written shows what the corrected frame shows, but also
      stores the in-segment column it shows as the logical column. */
  lemma FrameAsWrittenOverwrites(s: State, textHeight: int, textWidth: int)
    requires textWidth > 0
    ensures FrameAsWritten(s, textHeight, textWidth).Some? && Frame(s, textHeight, textWidth).Some?
    ensures
      var v := Frame(s, textHeight, textWidth).value;
      FrameAsWritten(s, textHeight, textWidth).value
        == v.(state := v.state.(cursorX := v.screenColumn - LineNumberWidth))
  {
  }

  /** On `["abcdefgh"]` at width 5 with the cursor at the end of the
      line's second segment (column 7), one frame puts the cursor at column
      2, so the next character lands after "ab" instead of after "abcdefg". */
  lemma FrameAsWrittenMisplacesInsert()
    ensures
      var s := State(["abcdefgh"], 0, 7, 0, "", [], [], false);
      var f := FrameAsWritten(s, 5, 5);
      && f.Some? && f.value.state.cursorX == 2
    ensures
      var s := State(["abcdefgh"], 0, 7, 0, "", [], [], false);
      InsertChar(FrameAsWritten(s, 5, 5).value.state, 'X').lines == ["abXcdefgh"]
    ensures
      var s := State(["abcdefgh"], 0, 7, 0, "", [], [], false);
      InsertChar(s, 'X').lines == ["abcdefgXh"]
  {
    var s := State(["abcdefgh"], 0, 7, 0, "", [], [], false);
    var segs := [Wrap.Segment(0, "abcde"), Wrap.Segment(0, "fgh")];
    SampleDisplay();
    assert Wrap.Locate(segs, 0, 7) == Wrap.Placement(1, 2);
    var t := s.(cursorX := 2);
    assert FrameAsWritten(s, 5, 5) == Some(View(t, 2, 2 + LineNumberWidth));
    SampleInserts(t, s);
  }

  /** `"abcdefgh"` at width 5 is displayed as `"abcde"` and `"fgh"`. */
  lemma SampleDisplay()
    ensures Wrap.Flatten(["abcdefgh"], 5) == Some([Wrap.Segment(0, "abcde"), Wrap.Segment(0, "fgh")])
  {
    var lines := ["abcdefgh"];
    assert "abcdefgh"[..5] == "abcde" && "abcdefgh"[5..] == "fgh";
    assert Wrap.Chunks("fgh", 5) == ["fgh"];
    assert Wrap.Chunks("abcdefgh", 5) == ["abcde", "fgh"];
    assert Wrap.WordWrap("abcdefgh", 5) == Some(["abcde", "fgh"]);
    assert lines[..0] == [];
    assert Wrap.Flatten(lines[..0], 5) == Some([]);
    var segs := [Wrap.Segment(0, "abcde"), Wrap.Segment(0, "fgh")];
    assert Wrap.Tag(0, ["abcde", "fgh"]) == segs;
    assert [] + segs == segs;
  }

  /** Typing `X` into `"abcdefgh"` at columns 2 and 7. */
  lemma SampleInserts(t: State, s: State)
    requires t == State(["abcdefgh"], 0, 2, 0, "", [], [], false)
    requires s == State(["abcdefgh"], 0, 7, 0, "", [], [], false)
    ensures InsertChar(t, 'X').lines == ["abXcdefgh"]
    ensures InsertChar(s, 'X').lines == ["abcdefgXh"]
  {
    assert "abcdefgh"[..2] == "ab" && "abcdefgh"[2..] == "cdefgh";
    assert InsertChar(t, 'X').lines[0] == "ab" + "X" + "cdefgh" == "abXcdefgh";
    assert |InsertChar(t, 'X').lines| == 1;
    assert "abcdefgh"[..7] == "abcdefg" && "abcdefgh"[7..] == "h";
    assert InsertChar(s, 'X').lines[0] == "abcdefg" + "X" + "h" == "abcdefgXh";
    assert |InsertChar(s, 'X').lines| == 1;
  }

  /** The frame with the lookup kept apart from the state: clamp the
      viewport, and compute the screen cell from the segment and the
      in-segment column; the logical cursor is left alone. */
  function Frame(s: State, textHeight: int, textWidth: int): (r: Option<View>)
    ensures r == None <==> Wrap.Flatten(s.lines, textWidth) == None
    ensures r.Some? ==> r.value.state == s.(screenYOffset := r.value.state.screenYOffset)
    ensures r.Some? && textHeight > 0 ==>
      r.value.state.screenYOffset <= s.cursorY < r.value.state.screenYOffset + textHeight
  {
    var offset := ScrollOffset(s.cursorY, s.screenYOffset, textHeight);
    match Wrap.Flatten(s.lines, textWidth)
    case None => None
    case Some(segs) =>
      var p := Wrap.Locate(segs, s.cursorY, s.cursorX);
      Some(View(s.(screenYOffset := offset), p.index - offset + 1, p.column + LineNumberWidth))
  }

  /** The viewport clamp works on logical rows, so a wrapped line above the
      cursor pushes it off the window: with a one-row text area five columns
      wide, the cursor at the start of the second line is scrolled to offset
      1, yet its display row is 2, so the terminal cursor lands on screen row
      2, below the only text row. */
  lemma ClampLeavesCursorBelow()
    ensures
      var s := State(["abcdefghij", "x"], 1, 0, 0, "", [], [], false);
      && Frame(s, 1, 5).Some?
      && Frame(s, 1, 5).value.state.screenYOffset == 1
      && Frame(s, 1, 5).value.screenRow == 2
      && !(1 <= Frame(s, 1, 5).value.screenRow < 1 + 1)
  {
    var s := State(["abcdefghij", "x"], 1, 0, 0, "", [], [], false);
    var lines := s.lines;
    assert "abcdefghij"[..5] == "abcde" && "abcdefghij"[5..] == "fghij";
    assert "fghij"[..5] == "fghij" && "fghij"[5..] == "";
    assert Wrap.Chunks("fghij", 5) == ["fghij"];
    assert Wrap.Chunks("abcdefghij", 5) == ["abcde", "fghij"];
    assert Wrap.WordWrap("abcdefghij", 5) == Some(["abcde", "fghij"]);
    assert Wrap.Chunks("x", 5) == ["x"];
    assert Wrap.WordWrap("x", 5) == Some(["x"]);
    assert lines[..1] == ["abcdefghij"];
    assert lines[..1][..0] == [];
    assert Wrap.Flatten(lines[..1][..0], 5) == Some([]);
    var first := [Wrap.Segment(0, "abcde"), Wrap.Segment(0, "fghij")];
    assert Wrap.Tag(0, ["abcde", "fghij"]) == first;
    assert [] + first == first;
    assert Wrap.Flatten(lines[..1], 5) == Some(first);
    var segs := first + [Wrap.Segment(1, "x")];
    assert Wrap.Tag(1, ["x"]) == [Wrap.Segment(1, "x")];
    assert Wrap.Flatten(lines, 5) == Some(segs);
    assert segs[0].row == 0 && segs[1].row == 0 && segs[2].row == 1;
    assert Wrap.ScanFrom(segs, 2, 1, 0) == Wrap.Placement(2, 0);
    assert Wrap.ScanFrom(segs, 1, 1, 0) == Wrap.ScanFrom(segs, 2, 1, 0);
    assert Wrap.ScanFrom(segs, 0, 1, 0) == Wrap.ScanFrom(segs, 1, 1, 0);
    assert Wrap.Locate(segs, 1, 0) == Wrap.Placement(2, 0);
    assert ScrollOffset(1, 0, 1) == 1;
    assert Frame(s, 1, 5) == Some(View(s.(screenYOffset := 1), 2, LineNumberWidth));
  }

  /** The frame puts the terminal cursor on a display row of the cursor's
      line, in the segment that holds its logical column, at the offset of
      that column inside the segment. */
  lemma FrameShowsCursor(s: State, textHeight: int, textWidth: int)
    requires Valid(s) && textWidth > 0
    ensures Frame(s, textHeight, textWidth).Some?
    ensures
      var v := Frame(s, textHeight, textWidth).value;
      Wrap.Shows(s.lines, textWidth, s.cursorY, s.cursorX,
                 v.state.screenYOffset + v.screenRow - 1, v.screenColumn - LineNumberWidth)
  {
    var segs := Wrap.Flatten(s.lines, textWidth).value;
    assert Wrap.Flatten(s.lines, textWidth) == Some(segs);
    var p := Wrap.Locate(segs, s.cursorY, s.cursorX);
    var offset := ScrollOffset(s.cursorY, s.screenYOffset, textHeight);
    var v := View(s.(screenYOffset := offset), p.index - offset + 1, p.column + LineNumberWidth);
    assert Frame(s, textHeight, textWidth) == Some(v);
    Wrap.ShowsLocated(s.lines, textWidth, s.cursorY, s.cursorX,
                      v.state.screenYOffset + v.screenRow - 1, v.screenColumn - LineNumberWidth);
  }

  // ---------------------------------------------------------------------
  // Line edits. Each one first saves an undo snapshot and sets `modified`.

  /** What every edit does to the history and the flag. */
  predicate Edited(s: State, r: State)
  {
    && r.undo == SaveUndo(s).undo && r.redo == [] && r.modified
    && r.clipboard == s.clipboard && r.screenYOffset == s.screenYOffset
  }

  /** All lines but `y` are the same in `a` and `b`, which have equal length. */
  predicate SameExcept(a: seq<string>, b: seq<string>, y: int)
  {
    |a| == |b| && forall i :: 0 <= i < |a| && i != y ==> a[i] == b[i]
  }

  /** Backspace: delete the character before the cursor; at column 0, join
      the line onto the previous one; at the start of the buffer, change
      nothing but the history and the flag. */
  function Backspace(s: State): (r: State)
    requires OnLine(s)
    ensures OnLine(r) && (Valid(s) ==> Valid(r)) && Edited(s, r)
    ensures Valid(s) && s.cursorX > 0 ==>
      && SameExcept(r.lines, s.lines, s.cursorY)
      && r.lines[s.cursorY] == s.lines[s.cursorY][..s.cursorX - 1] + s.lines[s.cursorY][s.cursorX..]
      && r.cursorY == s.cursorY && r.cursorX == s.cursorX - 1
    ensures s.cursorX > |s.lines[s.cursorY]| ==> r.lines == s.lines && r.cursorY == s.cursorY && r.cursorX == s.cursorX - 1
    ensures s.cursorX == 0 && s.cursorY > 0 ==>
      && |r.lines| == |s.lines| - 1
      && r.lines == s.lines[..s.cursorY - 1] + [s.lines[s.cursorY - 1] + s.lines[s.cursorY]] + s.lines[s.cursorY + 1..]
      && r.cursorY == s.cursorY - 1 && r.cursorX == |s.lines[s.cursorY - 1]|
    ensures s.cursorX == 0 && s.cursorY == 0 ==> r.lines == s.lines && r.cursorY == 0 && r.cursorX == 0
  {
    var h := SaveUndo(s).(modified := true);
    var y := s.cursorY;
    var line := s.lines[y];
    if s.cursorX > 0 then
      h.(lines := s.lines[y := SliceTo(line, s.cursorX - 1) + SliceFrom(line, s.cursorX)], cursorX := s.cursorX - 1)
    else if y > 0 then
      var prevLen := |s.lines[y - 1]|;
      var joined := s.lines[y - 1 := s.lines[y - 1] + line];
      h.(lines := joined[..y] + joined[y + 1..], cursorY := y - 1, cursorX := prevLen)
    else h
  }

  /** Enter: split the line at the cursor; the cursor goes to the start of
      the new second half. */
  function Newline(s: State): (r: State)
    requires OnLine(s)
    ensures Valid(r) && Edited(s, r)
    ensures |r.lines| == |s.lines| + 1
    ensures r.lines[s.cursorY] + r.lines[s.cursorY + 1] == s.lines[s.cursorY]
    ensures Valid(s) ==> |r.lines[s.cursorY]| == s.cursorX
    ensures s.cursorX >= |s.lines[s.cursorY]| ==> r.lines[s.cursorY] == s.lines[s.cursorY] && r.lines[s.cursorY + 1] == ""
    ensures r.lines[..s.cursorY] == s.lines[..s.cursorY] && r.lines[s.cursorY + 2..] == s.lines[s.cursorY + 1..]
    ensures r.cursorY == s.cursorY + 1 && r.cursorX == 0
  {
    var y := s.cursorY;
    var line := s.lines[y];
    var h := SaveUndo(s).(modified := true);
    var rest := SliceFrom(line, s.cursorX);
    var lines := s.lines[y := SliceTo(line, s.cursorX)];
    h.(lines := lines[..y + 1] + [rest] + lines[y + 1..], cursorY := y + 1, cursorX := 0)
  }

  /** Insert `text` at the cursor of its line and move past it: the common
      shape of Tab and of a printable key. */
  function InsertText(s: State, text: string): (r: State)
    requires OnLine(s)
    ensures OnLine(r) && (Valid(s) ==> Valid(r)) && Edited(s, r)
    ensures SameExcept(r.lines, s.lines, s.cursorY)
    ensures |r.lines[s.cursorY]| == |s.lines[s.cursorY]| + |text|
    ensures Valid(s) ==> r.lines[s.cursorY] == s.lines[s.cursorY][..s.cursorX] + text + s.lines[s.cursorY][s.cursorX..]
    ensures s.cursorX >= |s.lines[s.cursorY]| ==> r.lines[s.cursorY] == s.lines[s.cursorY] + text
    ensures r.cursorY == s.cursorY && r.cursorX == s.cursorX + |text|
  {
    var y := s.cursorY;
    var line := s.lines[y];
    var h := SaveUndo(s).(modified := true);
    h.(lines := s.lines[y := SliceTo(line, s.cursorX) + text + SliceFrom(line, s.cursorX)],
       cursorX := s.cursorX + |text|)
  }

  /** Tab: four spaces at the cursor. */
  function Tab(s: State): (r: State)
    requires OnLine(s)
    ensures OnLine(r) && (Valid(s) ==> Valid(r)) && Edited(s, r)
    ensures SameExcept(r.lines, s.lines, s.cursorY)
    ensures |r.lines[s.cursorY]| == |s.lines[s.cursorY]| + 4
    ensures Valid(s) ==> r.lines[s.cursorY][s.cursorX..s.cursorX + 4] == "    "
    ensures Valid(s) ==> r.lines[s.cursorY][..s.cursorX] == s.lines[s.cursorY][..s.cursorX]
    ensures Valid(s) ==> r.lines[s.cursorY][s.cursorX + 4..] == s.lines[s.cursorY][s.cursorX..]
    ensures s.cursorX >= |s.lines[s.cursorY]| ==> r.lines[s.cursorY] == s.lines[s.cursorY] + "    "
    ensures r.cursorY == s.cursorY && r.cursorX == s.cursorX + 4
  {
    InsertText(s, TabSpaces)
  }

  /** A printable key (codes 32 to 126): the character at the cursor. */
  function InsertChar(s: State, c: char): (r: State)
    requires OnLine(s)
    ensures OnLine(r) && (Valid(s) ==> Valid(r)) && Edited(s, r)
    ensures SameExcept(r.lines, s.lines, s.cursorY)
    ensures |r.lines[s.cursorY]| == |s.lines[s.cursorY]| + 1
    ensures Valid(s) ==> r.lines[s.cursorY][s.cursorX] == c
    ensures Valid(s) ==> r.lines[s.cursorY][..s.cursorX] == s.lines[s.cursorY][..s.cursorX]
    ensures Valid(s) ==> r.lines[s.cursorY][s.cursorX + 1..] == s.lines[s.cursorY][s.cursorX..]
    ensures s.cursorX >= |s.lines[s.cursorY]| ==> r.lines[s.cursorY] == s.lines[s.cursorY] + [c]
    ensures r.cursorY == s.cursorY && r.cursorX == s.cursorX + 1
  {
    InsertText(s, [c])
  }

  /** Backspace right after typing a character restores the text and the
      cursor. */
  lemma BackspaceUndoesInsert(s: State, c: char)
    requires Valid(s)
    ensures Backspace(InsertChar(s, c)).lines == s.lines
    ensures Backspace(InsertChar(s, c)).cursorY == s.cursorY
    ensures Backspace(InsertChar(s, c)).cursorX == s.cursorX
  {
    var t := InsertChar(s, c);
    var y := s.cursorY;
    var line := s.lines[y];
    assert t.lines[y][..s.cursorX] + t.lines[y][s.cursorX + 1..] == line[..s.cursorX] + line[s.cursorX..];
    assert line[..s.cursorX] + line[s.cursorX..] == line;
    assert Backspace(t).lines == t.lines[y := line];
  }

  /** Backspace right after Enter joins the two halves again. */
  lemma BackspaceUndoesNewline(s: State)
    requires Valid(s)
    ensures Backspace(Newline(s)).lines == s.lines
    ensures Backspace(Newline(s)).cursorY == s.cursorY
    ensures Backspace(Newline(s)).cursorX == s.cursorX
  {
    var t := Newline(s);
    var y := s.cursorY;
    var b := Backspace(t);
    assert b.lines == t.lines[..y] + [t.lines[y] + t.lines[y + 1]] + t.lines[y + 2..];
    assert s.lines == s.lines[..y] + [s.lines[y]] + s.lines[y + 1..];
  }

  // ---------------------------------------------------------------------
  // Cut and paste

  /** Ctrl-K as written: move the cursor's line into the clipboard and
      remove it; the cursor goes to column 0 and up a row when it was on the
      last line. Cutting the only line leaves no line at all. */
  function Cut(s: State): (r: State)
    requires OnLine(s)
    ensures Edited(s, r.(clipboard := s.clipboard))
    ensures r.clipboard == s.lines[s.cursorY]
    ensures r.lines == s.lines[..s.cursorY] + s.lines[s.cursorY + 1..]
    ensures r.cursorX == 0
    ensures s.cursorY < |s.lines| - 1 ==> r.cursorY == s.cursorY
    ensures s.cursorY == |s.lines| - 1 ==> r.cursorY == Max(0, s.cursorY - 1)
    ensures |s.lines| > 1 ==> Valid(r)
    ensures |s.lines| == 1 ==> r.lines == [] && !OnLine(r)
  {
    var h := SaveUndo(s).(modified := true);
    var y := s.cursorY;
    var lines := s.lines[..y] + s.lines[y + 1..];
    var y' := if y >= |lines| then Max(0, |lines| - 1) else y;
    h.(clipboard := s.lines[y], lines := lines, cursorY := y', cursorX := 0)
  }

  /** After Ctrl-K on a one-line buffer, a printable key indexes `lines[0]`
      of an empty list (IndexError). */
  lemma CutEmptiesBuffer()
    ensures
      var c := Cut(State(["abc"], 0, 0, 0, "", [], [], false));
      c.lines == [] && c.clipboard == "abc" && !OnLine(c)
  {
  }

  /** Ctrl-K keeping the buffer non-empty: cutting the only line leaves one
      empty line. */
  function CutKeepingLine(s: State): (r: State)
    requires OnLine(s)
    ensures Valid(r) && r.clipboard == s.lines[s.cursorY] && Edited(s, r.(clipboard := s.clipboard))
    ensures |s.lines| > 1 ==> r == Cut(s)
    ensures |s.lines| == 1 ==> r.lines == [""] && r.cursorY == 0 && r.cursorX == 0
  {
    var c := Cut(s);
    if c.lines == [] then c.(lines := [""]) else c
  }

  /** Ctrl-U: insert the clipboard as a new line at the cursor's row (Python
      `list.insert` appends when the row is past the end). The clipboard is
      kept, and so is the cursor. */
  function Paste(s: State): (r: State)
    requires 0 <= s.cursorY
    ensures Edited(s, r)
    ensures |r.lines| == |s.lines| + 1
    ensures s.cursorY <= |s.lines| ==> r.lines == s.lines[..s.cursorY] + [s.clipboard] + s.lines[s.cursorY..]
    ensures s.cursorY > |s.lines| ==> r.lines == s.lines + [s.clipboard]
    ensures r.cursorY == s.cursorY && r.cursorX == s.cursorX
    ensures OnLine(s) ==> OnLine(r)
  {
    var h := SaveUndo(s).(modified := true);
    var at := Min(s.cursorY, |s.lines|);
    h.(lines := s.lines[..at] + [s.clipboard] + s.lines[at..])
  }

  /** Cut then paste puts the line back, unless the cut line was the last of
      several (then the cursor has moved up a row; see
      `CutPasteSwapsLastLines`). */
  lemma CutThenPaste(s: State)
    requires OnLine(s) && (s.cursorY < |s.lines| - 1 || |s.lines| == 1)
    ensures Paste(Cut(s)).lines == s.lines
    ensures Paste(Cut(s)).clipboard == s.lines[s.cursorY]
  {
    var y := s.cursorY;
    assert s.lines == s.lines[..y] + [s.lines[y]] + s.lines[y + 1..];
    var c := Cut(s);
    assert c.lines[..y] == s.lines[..y];
    assert c.lines[y..] == s.lines[y + 1..];
  }

  /** Cutting the last of several lines and pasting swaps the last two
      lines. */
  lemma CutPasteSwapsLastLines(s: State)
    requires OnLine(s) && |s.lines| >= 2 && s.cursorY == |s.lines| - 1
    ensures
      var n := |s.lines|;
      Paste(Cut(s)).lines == s.lines[..n - 2] + [s.lines[n - 1], s.lines[n - 2]]
  {
    var n := |s.lines|;
    var c := Cut(s);
    assert c.lines == s.lines[..n - 1];
    assert c.lines[..n - 2] == s.lines[..n - 2];
    assert c.lines[n - 2..] == [s.lines[n - 2]];
  }

  /** The corrected cut pastes back just like the original one away from
      the last line. */
  lemma CutKeepingLineThenPaste(s: State)
    requires OnLine(s) && s.cursorY < |s.lines| - 1
    ensures Paste(CutKeepingLine(s)).lines == s.lines
  {
    CutThenPaste(s);
  }

  // ---------------------------------------------------------------------
  // Search, replace, goto

  /** The first row at or after `from` whose line contains `term`. */
  function FindRow(lines: seq<string>, term: string, from: nat): (r: Option<nat>)
    ensures r.Some? ==> from <= r.value < |lines| && Contains(lines[r.value], term)
    ensures r.Some? ==> forall i :: from <= i < r.value ==> !Contains(lines[i], term)
    ensures r.None? ==> forall i :: from <= i < |lines| ==> !Contains(lines[i], term)
    decreases |lines| - from
  {
    if from >= |lines| then None
    else if Contains(lines[from], term) then Some(from)
    else FindRow(lines, term, from + 1)
  }

  /** Ctrl-W: scan forward from the cursor's row (no wraparound) for a line
      containing `term`; on a match, the cursor goes to that row at the
      term's first occurrence, otherwise it stays. The flag says whether a
      match was found. */
  function Search(s: State, term: string): (r: (State, bool))
    requires 0 <= s.cursorY
    ensures r.1 <==> exists i :: s.cursorY <= i < |s.lines| && Contains(s.lines[i], term)
    ensures r.1 ==>
      && s.cursorY <= r.0.cursorY < |s.lines|
      && Contains(s.lines[r.0.cursorY], term)
      && (forall i :: s.cursorY <= i < r.0.cursorY ==> !Contains(s.lines[i], term))
      && OccursAt(s.lines[r.0.cursorY], term, r.0.cursorX)
      && (forall j :: 0 <= j < r.0.cursorX ==> !OccursAt(s.lines[r.0.cursorY], term, j))
      && Valid(r.0)
    ensures !r.1 ==> r.0 == s
    ensures r.0 == s.(cursorY := r.0.cursorY, cursorX := r.0.cursorX)
  {
    match FindRow(s.lines, term, s.cursorY)
    case None => (s, false)
    case Some(y) => (s.(cursorY := y, cursorX := Find(s.lines[y], term)), true)
  }

  /** The rows whose line contains `term`. */
  ghost function Hits(lines: seq<string>, term: string): set<int>
  {
    set i | 0 <= i < |lines| && Contains(lines[i], term)
  }

  lemma HitsOfPrefix(lines: seq<string>, term: string)
    requires lines != []
    ensures
      var n := |lines| - 1;
      && Hits(lines, term) == Hits(lines[..n], term) + (if Contains(lines[n], term) then {n} else {})
      && n !in Hits(lines[..n], term)
  {
    var n := |lines| - 1;
    forall i | 0 <= i < n
      ensures lines[..n][i] == lines[i]
    {
    }
  }

  /** How many lines contain `term`. */
  function CountHits(lines: seq<string>, term: string): (n: nat)
    ensures n == |Hits(lines, term)| && n <= |lines|
    ensures n == 0 <==> forall i :: 0 <= i < |lines| ==> !Contains(lines[i], term)
    decreases |lines|
  {
    if lines == [] then
      assert Hits(lines, term) == {};
      0
    else
      var n := |lines| - 1;
      HitsOfPrefix(lines, term);
      assert forall i :: 0 <= i < n ==> lines[..n][i] == lines[i];
      CountHits(lines[..n], term) + (if Contains(lines[n], term) then 1 else 0)
  }

  /** The buffer after replace-all, and the number of lines that contained
      the term (lines, not occurrences). */
  function ReplaceLines(lines: seq<string>, term: string, replacement: string): (r: (seq<string>, nat))
    ensures |r.0| == |lines|
    ensures forall i :: 0 <= i < |lines| ==> r.0[i] == Replace(lines[i], term, replacement)
    ensures forall i :: 0 <= i < |lines| && !Contains(lines[i], term) ==> r.0[i] == lines[i]
    ensures r.1 == 0 ==> r.0 == lines
    ensures r.1 == |Hits(lines, term)| && r.1 <= |lines|
  {
    var out := seq(|lines|, i requires 0 <= i < |lines| =>
      if Contains(lines[i], term) then Replace(lines[i], term, replacement) else lines[i]);
    (out, CountHits(lines, term))
  }

  /** Ctrl-\: replace every occurrence of `term` in every line, returning the
      count of lines changed. An empty term is found in every line and is
      inserted around every character, as Python does. */
  function ReplaceAll(s: State, term: string, replacement: string): (r: (State, nat))
    ensures Edited(s, r.0)
    ensures r.0.lines == ReplaceLines(s.lines, term, replacement).0
    ensures |r.0.lines| == |s.lines|
    ensures r.1 == |Hits(s.lines, term)| && r.1 <= |s.lines|
    ensures r.1 == 0 ==> r.0.lines == s.lines
    ensures r.0.cursorY == s.cursorY && r.0.cursorX == s.cursorX
    ensures OnLine(s) ==> OnLine(r.0)
  {
    var out := ReplaceLines(s.lines, term, replacement);
    (SaveUndo(s).(lines := out.0, modified := true), out.1)
  }

  /** For a non-empty term, each line of the result is the line split at
      the term's occurrences and joined back with the replacement. */
  lemma ReplaceAllSplitsLines(s: State, term: string, replacement: string)
    requires term != []
    ensures |ReplaceAll(s, term, replacement).0.lines| == |s.lines|
    ensures forall i :: 0 <= i < |s.lines| ==>
      ReplaceAll(s, term, replacement).0.lines[i] == JoinWith(Split(s.lines[i], term), replacement)
  {
    forall i | 0 <= i < |s.lines|
      ensures ReplaceAll(s, term, replacement).0.lines[i] == JoinWith(Split(s.lines[i], term), replacement)
    {
      ReplaceIsSplitJoin(s.lines[i], term, replacement);
    }
  }

  /** Replacing a non-empty term by itself leaves every line as it was. */
  lemma ReplaceAllBySelf(s: State, term: string)
    requires term != []
    ensures ReplaceAll(s, term, term).0.lines == s.lines
  {
    forall i | 0 <= i < |s.lines|
      ensures ReplaceAll(s, term, term).0.lines[i] == s.lines[i]
    {
      ReplaceBySelf(s.lines[i], term);
    }
  }

  /** On `["aa"]`, replacing "a" by "b" reports 1, although "a" occurred
      twice: the count is of lines, not of occurrences. */
  lemma ReplaceCountsLines()
    ensures ReplaceLines(["aa"], "a", "b") == (["bb"], 1)
  {
    var lines := ["aa"];
    PairReplaced();
    assert OccursAt(lines[0], "a", 0);
    assert lines[..0] == [];
    assert CountHits(lines, "a") == 1;
    var r := ReplaceLines(lines, "a", "b");
    assert |r.0| == 1 && r.0[0] == "bb";
    assert r.0 == ["bb"];
    assert r.1 == 1;
  }

  lemma PairReplaced()
    ensures Replace("aa", "a", "b") == "bb"
  {
    assert Replace("", "a", "b") == "";
    ReplaceFirstChar("", 'a', "", "b");
    assert "" + "a" + "" == "a";
    ReplaceFirstChar("", 'a', "a", "b");
    assert "" + "a" + "a" == "aa";
  }

  /** Replacing a character replaces its first occurrence, then goes on
      after it. */
  lemma ReplaceFirstChar(pre: string, c: char, rest: string, r: string)
    requires c !in pre
    ensures Replace(pre + [c] + rest, [c], r) == pre + r + Replace(rest, [c], r)
  {
    var s := pre + [c] + rest;
    assert s[|pre|..|pre| + 1] == [c];
    assert OccursAt(s, [c], |pre|);
    forall j | 0 <= j < |pre|
      ensures !OccursAt(s, [c], j)
    {
      assert s[j..j + 1][0] == pre[j];
    }
    var i := Find(s, [c]);
    assert i == |pre|;
    assert s[..i] == pre && s[i + 1..] == rest;
  }

  /** Ctrl-_: jump to line `n` (1-based) when it exists, keeping the column
      when the line is long enough. `None` is input that `int()` rejects;
      it, like an out-of-range number, changes nothing. */
  function Goto(s: State, n: Option<int>): (r: State)
    ensures r.lines == s.lines && r == s.(cursorY := r.cursorY, cursorX := r.cursorX)
    ensures (n.Some? && 1 <= n.value <= |s.lines|) ==>
      r.cursorY == n.value - 1 && r.cursorX == Min(s.cursorX, |s.lines[n.value - 1]|)
    ensures !(n.Some? && 1 <= n.value <= |s.lines|) ==> r == s
    ensures OnLine(s) ==> OnLine(r)
  {
    match n
    case None => s
    case Some(k) =>
      var y := k - 1;
      if 0 <= y < |s.lines| then s.(cursorY := y, cursorX := Min(s.cursorX, |s.lines[y]|))
      else s
  }

  // ---------------------------------------------------------------------
  // Save

  /** Ctrl-O: the text written is the lines joined with newlines; the flag
      is cleared only when the write succeeded (`written`). Whether the
      rename to the `~` backup and the write succeed is decided outside. */
  function Save(s: State, written: bool): (r: (State, string))
    ensures r.1 == TextFile.Serialize(s.lines)
    ensures r.0.modified == (s.modified && !written)
    ensures r.0 == s.(modified := r.0.modified)
  {
    (s.(modified := s.modified && !written), TextFile.Serialize(s.lines))
  }

  /** Reopening a saved file gives the buffer back when no line is empty at
      the end of a several-line buffer (that one is lost). */
  lemma SaveThenOpen(s: State)
    requires |s.lines| >= 1 && forall i :: 0 <= i < |s.lines| ==> TextFile.IsLine(s.lines[i])
    requires |s.lines| == 1 || s.lines[|s.lines| - 1] != ""
    ensures Open(Some(Save(s, true).1)).lines == s.lines
  {
    TextFile.LoadSerialized(s.lines);
  }
}

=== FILE: optional.dfy ===
/** An optional value: `None` stands for Python's "no value" outcomes
    (a failed parse, a missing file, an exception the editor swallows). */
module Optional {

  datatype Option<+T> = None | Some(value: T)

}

=== FILE: session.dfy ===
/** The editing loop: each iteration draws a frame and then handles one
    command. This is the corrected loop: cutting the only line keeps one
    empty line, and undo and redo keep the cursor on the restored text, so
    every handler indexes an existing line and a session can only fail
    where the frame's display list raises (a zero text width). */
module Session {
  import opened Optional
  import Editor
  import Wrap

  /** One decoded key, with the answers typed at its prompts. Keys the loop
      does not handle arrive as a `Key` outside the printable range. */
  datatype Command =
    | Click(mx: int, my: int)
    | Up | Down | Left | Right
    | Backspace | Enter | Tab
    | Key(code: int)
    | Save(written: bool)
    | Help
    | Search(term: string)
    | ReplaceAll(term: string, replacement: string)
    | Goto(line: Option<int>)
    | Cut | Paste | Undo | Redo

  /** Key codes 32 to 126 insert their character. */
  predicate Printable(code: int)
  {
    32 <= code <= 126
  }

  /** The commands that save an undo snapshot before they change the
      buffer. */
  predicate IsEdit(cmd: Command)
  {
    match cmd
    case Backspace | Enter | Tab | ReplaceAll(_, _) | Cut | Paste => true
    case Key(code) => Printable(code)
    case _ => false
  }

  /** What holds between any two commands: the cursor is on a line of a
      non-empty buffer, every snapshot is a non-empty buffer, and the two
      stacks together hold at most `HistoryLimit` snapshots. */
  predicate Inv(s: Editor.State)
  {
    && Editor.OnLine(s)
    && |s.undo| + |s.redo| <= Editor.HistoryLimit
    && (forall k :: 0 <= k < |s.undo| ==> s.undo[k] != [])
    && (forall k :: 0 <= k < |s.redo| ==> s.redo[k] != [])
  }

  /** A fresh session satisfies the invariant. */
  lemma OpenSatisfiesInv(contents: Option<string>)
    ensures Inv(Editor.Open(contents))
  {
  }

  /** The key handler of one iteration. `textHeight` is the height of the
      text area, which decides whether a click lands in it. */
  function Step(s: Editor.State, cmd: Command, textHeight: int): (r: Editor.State)
    requires Inv(s)
    ensures Inv(r)
    ensures IsEdit(cmd) ==> r.undo == Editor.SaveUndo(s).undo && r.redo == [] && r.modified
    ensures !IsEdit(cmd) && cmd != Undo && cmd != Redo ==>
      r.lines == s.lines && r.undo == s.undo && r.redo == s.redo
    ensures cmd == Undo ==> r.lines == Editor.Undo(s).lines && r.undo == Editor.Undo(s).undo && r.redo == Editor.Undo(s).redo
    ensures cmd == Redo ==> r.lines == Editor.Redo(s).lines && r.undo == Editor.Redo(s).undo && r.redo == Editor.Redo(s).redo
    ensures r.screenYOffset == s.screenYOffset
  {
    var r := Handle(s, cmd, textHeight);
    HandleKeepsInv(s, cmd, textHeight);
    r
  }

  /** The dispatch on the command. */
  function Handle(s: Editor.State, cmd: Command, textHeight: int): (r: Editor.State)
    requires Editor.OnLine(s)
    ensures IsEdit(cmd) ==> Editor.OnLine(r) && r.undo == Editor.SaveUndo(s).undo && r.redo == [] && r.modified
    ensures !IsEdit(cmd) && cmd != Undo && cmd != Redo ==>
      Editor.OnLine(r) && r.lines == s.lines && r.undo == s.undo && r.redo == s.redo
    ensures cmd == Undo ==> r.lines == Editor.Undo(s).lines && r.undo == Editor.Undo(s).undo && r.redo == Editor.Undo(s).redo
    ensures cmd == Redo ==> r.lines == Editor.Redo(s).lines && r.undo == Editor.Redo(s).undo && r.redo == Editor.Redo(s).redo
    ensures r.screenYOffset == s.screenYOffset
    ensures cmd == Cut ==> r.clipboard == s.lines[s.cursorY]
    ensures cmd != Cut ==> r.clipboard == s.clipboard
  {
    if IsEdit(cmd) then Edit(s, cmd)
    else if cmd == Undo then Editor.UndoKeepingCursor(s)
    else if cmd == Redo then Editor.RedoKeepingCursor(s)
    else Browse(s, cmd, textHeight)
  }

  /** The commands that change the buffer. */
  function Edit(s: Editor.State, cmd: Command): (r: Editor.State)
    requires Editor.OnLine(s) && IsEdit(cmd)
    ensures Editor.OnLine(r) && r.undo == Editor.SaveUndo(s).undo && r.redo == [] && r.modified
    ensures r.screenYOffset == s.screenYOffset
    ensures cmd == Cut ==> r.clipboard == s.lines[s.cursorY]
    ensures cmd != Cut ==> r.clipboard == s.clipboard
    ensures cmd == Enter || cmd == Paste ==> |r.lines| == |s.lines| + 1
  {
    match cmd
    case Backspace => Editor.Backspace(s)
    case Enter => Editor.Newline(s)
    case Tab => Editor.Tab(s)
    case Key(code) => Editor.InsertChar(s, code as char)
    case ReplaceAll(term, replacement) => Editor.ReplaceAll(s, term, replacement).0
    case Cut => Editor.CutKeepingLine(s)
    case Paste => Editor.Paste(s)
  }

  /** The commands that leave the buffer and the history alone. */
  function Browse(s: Editor.State, cmd: Command, textHeight: int): (r: Editor.State)
    requires Editor.OnLine(s) && !IsEdit(cmd) && cmd != Undo && cmd != Redo
    ensures Editor.OnLine(r) && r.lines == s.lines && r.undo == s.undo && r.redo == s.redo
    ensures r.screenYOffset == s.screenYOffset
    ensures r == s.(cursorY := r.cursorY, cursorX := r.cursorX, modified := r.modified)
    ensures cmd.Save? ==> r.modified == (s.modified && !cmd.written)
    ensures !cmd.Save? ==> r.modified == s.modified
  {
    match cmd
    case Click(mx, my) => Editor.Click(s, mx, my, textHeight)
    case Up => Editor.MoveUp(s)
    case Down => Editor.MoveDown(s)
    case Left => Editor.MoveLeft(s)
    case Right => Editor.MoveRight(s)
    case Key(_) => s
    case Save(written) => Editor.Save(s, written).0
    case Help => s
    case Search(term) => Editor.Search(s, term).0
    case Goto(line) => Editor.Goto(s, line)
  }

  lemma HandleKeepsInv(s: Editor.State, cmd: Command, textHeight: int)
    requires Inv(s)
    ensures Inv(Handle(s, cmd, textHeight))
  {
    var r := Handle(s, cmd, textHeight);
    if IsEdit(cmd) {
      SnapshotKeepsInv(s, r);
    } else if cmd == Undo {
      if s.undo != [] {
        var n := |s.undo| - 1;
        assert r.undo == s.undo[..n] && r.redo == s.redo + [s.lines];
        assert s.undo[n] != [];
      }
    } else if cmd == Redo {
      if s.redo != [] {
        var n := |s.redo| - 1;
        assert r.redo == s.redo[..n] && r.undo == s.undo + [s.lines];
        assert s.redo[n] != [];
      }
    }
  }

  /** An edit's history change keeps the invariant. */
  lemma SnapshotKeepsInv(s: Editor.State, r: Editor.State)
    requires Inv(s) && Editor.OnLine(r)
    requires r.undo == Editor.SaveUndo(s).undo && r.redo == []
    ensures Inv(r)
  {
    var pushed := s.undo + [s.lines];
    assert forall k :: 0 <= k < |pushed| ==> pushed[k] != [];
  }

  /** The size of the terminal's text area during one iteration, and the
      command read in it. */
  datatype Input = Input(textHeight: int, textWidth: int, cmd: Command)

  /** One iteration: draw the frame (which may raise), then handle the
      command. */
  function Iterate(s: Editor.State, input: Input): (r: Option<Editor.State>)
    requires Inv(s)
    ensures r.Some? ==> Inv(r.value)
    ensures r.None? <==> Wrap.Flatten(s.lines, input.textWidth).None?
    ensures r.Some? && input.textHeight > 0 ==>
      r.value.screenYOffset <= s.cursorY < r.value.screenYOffset + input.textHeight
  {
    match Editor.Frame(s, input.textHeight, input.textWidth)
    case None => None
    case Some(v) => Some(Step(v.state, input.cmd, input.textHeight))
  }

  /** A whole session from state `s`: `None` when some frame raised. */
  function Run(s: Editor.State, inputs: seq<Input>): (r: Option<Editor.State>)
    requires Inv(s)
    ensures r.Some? ==> Inv(r.value)
    decreases |inputs|
  {
    if inputs == [] then Some(s)
    else
      match Run(s, inputs[..|inputs| - 1])
      case None => None
      case Some(t) => Iterate(t, inputs[|inputs| - 1])
  }

  /** With a non-zero text width in every iteration the session never
      raises, and the buffer is never empty. */
  lemma {:induction false} RunNeverFails(s: Editor.State, inputs: seq<Input>)
    requires Inv(s)
    requires forall k :: 0 <= k < |inputs| ==> inputs[k].textWidth != 0
    ensures Run(s, inputs).Some? && Run(s, inputs).value.lines != []
    decreases |inputs|
  {
    if inputs == [] {
      assert Run(s, inputs) == Some(s);
      assert Editor.OnLine(s);
    } else {
      var n := |inputs| - 1;
      var front := inputs[..n];
      assert forall k :: 0 <= k < n ==> front[k] == inputs[k];
      RunNeverFails(s, front);
      var t := Run(s, front).value;
      assert Run(s, front) == Some(t);
      assert Run(s, inputs) == Iterate(t, inputs[n]);
      IterateNeverFails(t, inputs[n]);
      var u := Iterate(t, inputs[n]).value;
      assert Inv(u);
      assert Editor.OnLine(u);
    }
  }

  lemma IterateNeverFails(s: Editor.State, input: Input)
    requires Inv(s) && input.textWidth != 0
    ensures Iterate(s, input).Some?
  {
    Wrap.FlattenFails(s.lines, input.textWidth);
  }

  // ---------------------------------------------------------------------
  // History over many commands

  /** The key handler applied to each command in turn. */
  function Steps(s: Editor.State, cmds: seq<Command>, textHeight: int): (r: Editor.State)
    requires Inv(s)
    ensures Inv(r)
    decreases |cmds|
  {
    if cmds == [] then s
    else Step(Steps(s, cmds[..|cmds| - 1], textHeight), cmds[|cmds| - 1], textHeight)
  }

  /** The buffers the commands were applied to, oldest first. */
  function Before(s: Editor.State, cmds: seq<Command>, textHeight: int): (r: seq<seq<string>>)
    requires Inv(s)
    ensures |r| == |cmds|
    ensures cmds != [] ==> r[0] == s.lines
    decreases |cmds|
  {
    if cmds == [] then []
    else
      var n := |cmds| - 1;
      var front := Before(s, cmds[..n], textHeight);
      assert n > 0 ==> cmds[..n][..n - 1] == cmds[..n - 1];
      front + [Steps(s, cmds[..n], textHeight).lines]
  }

  /** After at most `HistoryLimit` edits, the newest snapshots on the undo
      stack are exactly the buffers the edits were applied to. */
  lemma {:induction false} EditsRecordHistory(s: Editor.State, cmds: seq<Command>, textHeight: int)
    requires Inv(s)
    requires |cmds| <= Editor.HistoryLimit
    requires forall k :: 0 <= k < |cmds| ==> IsEdit(cmds[k])
    ensures |cmds| <= |Steps(s, cmds, textHeight).undo|
    ensures Suffix(Steps(s, cmds, textHeight).undo, |cmds|) == Before(s, cmds, textHeight)
    decreases |cmds|
  {
    if cmds != [] {
      var n := |cmds| - 1;
      var p := cmds[..n];
      assert forall k :: 0 <= k < n ==> p[k] == cmds[k];
      EditsRecordHistory(s, p, textHeight);
      var g := Steps(s, p, textHeight);
      var h := Before(s, p, textHeight);
      var u := Editor.SaveUndo(g).undo;
      assert Steps(s, cmds, textHeight) == Step(g, cmds[n], textHeight);
      assert IsEdit(cmds[n]);
      assert Steps(s, cmds, textHeight).undo == u;
      assert Before(s, cmds, textHeight) == h + [g.lines];
      assert Suffix(g.undo, n) == h;
      PushRecords(g, h, n);
    }
  }

  /** Saving a snapshot extends the recorded newest `n` snapshots by the
      current buffer, as long as `n + 1` fit in the history. */
  lemma PushRecords(g: Editor.State, h: seq<seq<string>>, n: nat)
    requires Inv(g) && n < Editor.HistoryLimit && n <= |g.undo| && Suffix(g.undo, n) == h
    ensures n + 1 <= |Editor.SaveUndo(g).undo|
    ensures Suffix(Editor.SaveUndo(g).undo, n + 1) == h + [g.lines]
  {
    var u := Editor.SaveUndo(g).undo;
    if |g.undo| < Editor.HistoryLimit {
      assert u == g.undo + [g.lines];
      SuffixOfPush(g.undo, g.lines, n);
    } else {
      assert u == g.undo[1..] + [g.lines];
      SuffixOfPush(g.undo[1..], g.lines, n);
      assert Suffix(g.undo[1..], n) == Suffix(g.undo, n);
    }
  }

  /** The last `n` elements of `u`. */
  function Suffix<T>(u: seq<T>, n: nat): seq<T>
    requires n <= |u|
  {
    u[|u| - n..]
  }

  /** The last `n + 1` elements after a push are the last `n` before it and
      the pushed one. */
  lemma SuffixOfPush<T>(u: seq<T>, x: T, n: nat)
    requires n <= |u|
    ensures Suffix(u + [x], n + 1) == Suffix(u, n) + [x]
  {
  }

  /** `k` presses of Ctrl-Z. */
  function Undos(s: Editor.State, k: nat, textHeight: int): (r: Editor.State)
    requires Inv(s)
    ensures Inv(r)
    decreases k
  {
    if k == 0 then s else Step(Undos(s, k - 1, textHeight), Undo, textHeight)
  }

  /** `k` undos, with at least `k` snapshots available, restore the `k`-th
      newest snapshot and leave the older ones on the stack. */
  lemma {:induction false} UndosRestore(s: Editor.State, k: nat, textHeight: int)
    requires Inv(s) && 0 < k <= |s.undo|
    ensures Undos(s, k, textHeight).lines == s.undo[|s.undo| - k]
    ensures Undos(s, k, textHeight).undo == s.undo[..|s.undo| - k]
    decreases k
  {
    var t := Undos(s, k - 1, textHeight);
    if k > 1 {
      UndosRestore(s, k - 1, textHeight);
      assert t.undo[..|t.undo| - 1] == s.undo[..|s.undo| - k];
    }
    assert Undos(s, k, textHeight) == Step(t, Undo, textHeight);
    assert t.undo != [];
    assert Editor.Undo(t).undo == t.undo[..|t.undo| - 1];
  }

  /** Up to `HistoryLimit` edits followed by as many undos give the
      original buffer back. */
  lemma EditsThenUndos(s: Editor.State, cmds: seq<Command>, textHeight: int)
    requires Inv(s)
    requires 0 < |cmds| <= Editor.HistoryLimit
    requires forall k :: 0 <= k < |cmds| ==> IsEdit(cmds[k])
    ensures Undos(Steps(s, cmds, textHeight), |cmds|, textHeight).lines == s.lines
  {
    EditsRecordHistory(s, cmds, textHeight);
    var f := Steps(s, cmds, textHeight);
    UndosRestore(f, |cmds|, textHeight);
    assert Suffix(f.undo, |cmds|)[0] == f.undo[|f.undo| - |cmds|];
  }

  /** An edit forgets the redo stack, so a redo right after it changes
      nothing. */
  lemma EditClearsRedo(s: Editor.State, cmd: Command, textHeight: int)
    requires Inv(s) && IsEdit(cmd)
    ensures Step(s, cmd, textHeight).redo == []
    ensures Step(Step(s, cmd, textHeight), Redo, textHeight) == Step(s, cmd, textHeight)
  {
    var t := Step(s, cmd, textHeight);
    assert t.redo == [];
    assert Step(t, Redo, textHeight) == Handle(t, Redo, textHeight) == Editor.RedoKeepingCursor(t);
  }

  /** Undo right after an edit restores the buffer the edit changed. */
  lemma UndoAfterEdit(s: Editor.State, cmd: Command, textHeight: int)
    requires Inv(s) && IsEdit(cmd)
    ensures Step(Step(s, cmd, textHeight), Undo, textHeight).lines == s.lines
  {
  }
}

=== FILE: strings.dfy ===
/** The Python string operations the editor relies on: `t in s`, `s.find(t)`,
    `s.split(t)`, `s.replace(t, r)`, `sep.join(parts)` and slicing `s[:n]`,
    `s[n:]` with Python's clamping of out-of-range bounds. */
module Strings {

  /** True when `t` occurs in `s` starting at index `i`. */
  predicate OccursAt(s: string, t: string, i: int)
  {
    0 <= i && i + |t| <= |s| && s[i..i + |t|] == t
  }

  /** Python's `t in s`. The empty string occurs in every string, and so
      does each of its prefixes; nothing longer than `s` occurs in it. */
  predicate Contains(s: string, t: string): (b: bool)
    ensures b ==> |t| <= |s|
    ensures t <= s ==> b
  {
    assert t <= s ==> OccursAt(s, t, 0);
    exists i :: 0 <= i <= |s| && OccursAt(s, t, i)
  }

  /** For a one-character term, `t in s` is membership of that character. */
  lemma ContainsChar(s: string, c: char)
    ensures Contains(s, [c]) <==> c in s
  {
    if c in s {
      var j :| 0 <= j < |s| && s[j] == c;
      assert OccursAt(s, [c], j);
    }
    if Contains(s, [c]) {
      var j :| 0 <= j <= |s| && OccursAt(s, [c], j);
      assert s[j..j + 1][0] == c;
    }
  }

  /** `s.find(t)` restricted to positions `i` and later: the first position
      at or after `i` where `t` occurs, or -1. */
  function FindFrom(s: string, t: string, i: nat): (r: int)
    requires i <= |s|
    ensures r == -1 || (i <= r && OccursAt(s, t, r))
    ensures forall j :: i <= j && (r == -1 || j < r) ==> !OccursAt(s, t, j)
    decreases |s| - i
  {
    if OccursAt(s, t, i) then i
    else if i == |s| then -1
    else FindFrom(s, t, i + 1)
  }

  /** Python's `s.find(t)`: the index of the first occurrence of `t`, or -1. */
  function Find(s: string, t: string): (r: int)
    ensures r == -1 <==> !Contains(s, t)
    ensures r != -1 ==> OccursAt(s, t, r)
    ensures forall j :: 0 <= j < r ==> !OccursAt(s, t, j)
  {
    FindFrom(s, t, 0)
  }

  /** Python's `s[:n]` for a non-negative `n`. */
  function SliceTo(s: string, n: nat): (r: string)
    ensures |r| == if n <= |s| then n else |s|
    ensures r + SliceFrom(s, n) == s
  {
    if n <= |s| then s[..n] else s
  }

  /** Python's `s[n:]` for a non-negative `n`. */
  function SliceFrom(s: string, n: nat): (r: string)
    ensures |r| == if n <= |s| then |s| - n else 0
  {
    if n <= |s| then s[n..] else []
  }

  /** Python's `sep.join(parts)`. */
  function JoinWith(parts: seq<string>, sep: string): string
  {
    if |parts| == 0 then []
    else if |parts| == 1 then parts[0]
    else parts[0] + sep + JoinWith(parts[1..], sep)
  }

  /** A join starts with the first part and ends with the last, and a
      separator follows the first part when there is a second; joining no
      parts gives the empty string. */
  lemma {:induction false} JoinWithEnds(parts: seq<string>, sep: string)
    ensures |parts| == 0 ==> JoinWith(parts, sep) == []
    ensures |parts| >= 1 ==> parts[0] <= JoinWith(parts, sep)
    ensures |parts| >= 2 ==> (parts[0] + sep) <= JoinWith(parts, sep)
    ensures |parts| >= 1 ==>
      var r, last := JoinWith(parts, sep), parts[|parts| - 1];
      |last| <= |r| && r[|r| - |last|..] == last
    decreases |parts|
  {
    if |parts| >= 2 {
      var r, rest := JoinWith(parts, sep), JoinWith(parts[1..], sep);
      JoinWithEnds(parts[1..], sep);
      assert r == (parts[0] + sep) + rest;
      assert parts[1..][|parts| - 2] == parts[|parts| - 1];
      assert r[|r| - |rest|..] == rest;
    }
  }

  /** An occurrence inside a prefix is an occurrence in the whole string. */
  lemma OccursInPrefix(s: string, t: string, n: nat, j: int)
    requires n <= |s|
    requires OccursAt(s[..n], t, j)
    ensures OccursAt(s, t, j)
  {
    assert s[..n][j..j + |t|] == s[j..j + |t|];
  }

  /** A piece ends at the first occurrence of `sep` after its start: in the
      piece followed by `sep`, the first occurrence of `sep` is that final
      one. */
  predicate CutAtFirst(piece: string, sep: string)
  {
    Find(piece + sep, sep) == |piece|
  }

  /** Python's `s.split(sep)` for a non-empty separator: the pieces between
      the leftmost non-overlapping occurrences of `sep`. Joining the pieces
      with `sep` gives `s` back, no piece contains `sep`, and every piece but
      the last ends at the first occurrence after its start. */
  function Split(s: string, sep: string): (parts: seq<string>)
    requires sep != []
    ensures |parts| >= 1
    ensures JoinWith(parts, sep) == s
    ensures forall k :: 0 <= k < |parts| ==> !Contains(parts[k], sep)
    ensures forall k :: 0 <= k < |parts| - 1 ==> CutAtFirst(parts[k], sep)
    decreases |s|
  {
    var i := Find(s, sep);
    if i == -1 then [s]
    else
      var head := s[..i];
      var rest := Split(s[i + |sep|..], sep);
      FirstOccurrenceCut(s, sep, i);
      var parts := [head] + rest;
      assert parts[1..] == rest;
      parts
  }

  /** Cutting at the first occurrence of `sep` gives a piece without `sep`
      that ends at that occurrence, and the text is the piece, `sep` and the
      remainder. */
  lemma FirstOccurrenceCut(s: string, sep: string, i: int)
    requires sep != [] && i == Find(s, sep) && i != -1
    ensures !Contains(s[..i], sep) && CutAtFirst(s[..i], sep)
    ensures s == s[..i] + sep + s[i + |sep|..]
  {
    var head := s[..i];
    forall j | OccursAt(head, sep, j)
      ensures false
    {
      OccursInPrefix(s, sep, i, j);
    }
    var t := head + sep;
    assert t == s[..i + |sep|];
    assert OccursAt(t, sep, i);
    forall j | 0 <= j < i
      ensures !OccursAt(t, sep, j)
    {
      if OccursAt(t, sep, j) {
        OccursInPrefix(s, sep, i + |sep|, j);
      }
    }
    assert s == s[..i + |sep|] + s[i + |sep|..];
  }

  /** Python's `s.replace("", r)`: `r` before every character and at the
      end. The result starts with `r`, and with an empty `r` it is `s`
      itself. */
  function Interleave(s: string, r: string): (res: string)
    ensures r <= res
    ensures r == [] ==> res == s
    decreases |s|
  {
    if s == [] then r else r + [s[0]] + Interleave(s[1..], r)
  }

  /** `s.replace("", r)` puts one copy of `r` into each of the `|s| + 1`
      gaps of `s`, and character `k` of `s` lands after `k + 1` copies of
      `r` and `k` characters of `s`. */
  lemma {:induction false} InterleaveLayout(s: string, r: string)
    ensures |Interleave(s, r)| == |s| + (|s| + 1) * |r|
    ensures forall k :: 0 <= k < |s| ==> Interleave(s, r)[k + (k + 1) * |r|] == s[k]
    decreases |s|
  {
    if s != [] {
      var tail := Interleave(s[1..], r);
      var res := Interleave(s, r);
      assert res == r + [s[0]] + tail;
      InterleaveLayout(s[1..], r);
      assert (|s| + 1) * |r| == |s| * |r| + |r|;
      forall k | 0 <= k < |s|
        ensures res[k + (k + 1) * |r|] == s[k]
      {
        if k > 0 {
          assert (k + 1) * |r| == k * |r| + |r|;
          assert k + (k + 1) * |r| == (|r| + 1) + ((k - 1) + k * |r|);
          assert res[(|r| + 1) + ((k - 1) + k * |r|)] == tail[(k - 1) + k * |r|];
          assert s[1..][k - 1] == s[k];
        }
      }
    }
  }

  /** Gap `j` of an interleaving with `r`: the `|r|` characters that start
      after `j` copies of `r` and `j` characters of the original are `r`. */
  predicate GapHolds(res: string, j: nat, r: string)
  {
    j * (|r| + 1) + |r| <= |res| && res[j * (|r| + 1)..j * (|r| + 1) + |r|] == r
  }

  /** Every one of the `|s| + 1` gaps of `s.replace("", r)` holds `r`;
      with `InterleaveLayout` this fixes every character of the result. */
  lemma {:induction false} InterleaveGaps(s: string, r: string)
    ensures forall j :: 0 <= j <= |s| ==> GapHolds(Interleave(s, r), j, r)
    decreases |s|
  {
    var res := Interleave(s, r);
    if s == [] {
      assert GapHolds(res, 0, r);
    } else {
      var tail := Interleave(s[1..], r);
      var front := r + [s[0]];
      assert res == front + tail;
      InterleaveGaps(s[1..], r);
      forall j | 0 <= j <= |s|
        ensures GapHolds(res, j, r)
      {
        if j == 0 {
          assert res[..|r|] == r;
        } else {
          var p := (j - 1) * (|r| + 1);
          assert j * (|r| + 1) == |front| + p;
          assert GapHolds(tail, j - 1, r);
          assert res[|front| + p..|front| + p + |r|] == tail[p..p + |r|];
        }
      }
    }
  }

  /** Python's `s.replace(f, r)`: the leftmost non-overlapping occurrences
      of `f` become `r`. A string without `f` is returned unchanged. */
  function Replace(s: string, f: string, r: string): (res: string)
    ensures !Contains(s, f) ==> res == s
    decreases |s|
  {
    if f == [] then
      assert OccursAt(s, f, 0);
      Interleave(s, r)
    else
      var i := Find(s, f);
      if i == -1 then s
      else s[..i] + r + Replace(s[i + |f|..], f, r)
  }

  /** `s.replace(f, r) == r.join(s.split(f))`: replacing is splitting at the
      leftmost non-overlapping occurrences of `f` and joining the pieces with
      `r`. Together with the contract of `Split`, this says those occurrences
      are replaced and nothing else changes; an occurrence that overlaps one
      already replaced survives (`ReplaceOverlapping`). */
  lemma {:induction false} ReplaceIsSplitJoin(s: string, f: string, r: string)
    requires f != []
    ensures Replace(s, f, r) == JoinWith(Split(s, f), r)
    decreases |s|
  {
    var i := Find(s, f);
    if i != -1 {
      ReplaceIsSplitJoin(s[i + |f|..], f, r);
    }
  }

  /** Replacing a term by itself changes nothing. */
  lemma ReplaceBySelf(s: string, f: string)
    requires f != []
    ensures Replace(s, f, f) == s
  {
    ReplaceIsSplitJoin(s, f, f);
  }

  /** Replacing a single character by a text that does not hold it leaves no
      occurrence of that character. */
  lemma {:induction false} ReplaceCharRemovesAll(s: string, c: char, r: string)
    requires c !in r
    ensures c !in Replace(s, [c], r)
    decreases |s|
  {
    var i := Find(s, [c]);
    if i == -1 {
      ContainsChar(s, c);
      assert Replace(s, [c], r) == s;
    } else {
      var head, rest := s[..i], Replace(s[i + 1..], [c], r);
      assert Replace(s, [c], r) == head + r + rest;
      ReplaceCharRemovesAll(s[i + 1..], c, r);
      forall j | 0 <= j < i
        ensures head[j] != c
      {
        assert !OccursAt(s, [c], j);
        assert s[j..j + 1] == [s[j]];
      }
    }
  }

  /** Replacement is leftmost and non-overlapping: in `"aaa"` only the
      occurrence of `"aa"` at 0 is replaced, and the one at 1 survives as
      the trailing `"a"`. */
  lemma ReplaceOverlapping()
    ensures OccursAt("aaa", "aa", 1)
    ensures Replace("aaa", "aa", "b") == "ba"
  {
    assert OccursAt("aaa", "aa", 0);
    assert Find("aaa", "aa") == 0;
    assert "aaa"[2..] == "a";
    assert Find("a", "aa") == -1;
  }

  /** For a longer term, "the replacement does not contain the term" is not
      enough for the result to be free of it: new occurrences can straddle
      the seams. */
  lemma ReplaceCanLeaveOccurrence()
    ensures Contains(Replace("aabb", "ab", "a"), "ab")
    ensures !Contains("a", "ab")
  {
    assert OccursAt("aabb", "ab", 1);
    assert "aabb"[0..2][1] != "ab"[1];
    assert Find("aabb", "ab") == 1;
    assert Find("b", "ab") == -1;
    assert Replace("aabb", "ab", "a") == "aab";
    assert OccursAt("aab", "ab", 1);
  }
}

=== FILE: textfile.dfy ===
/** The string side of loading and saving a file: the editor reads a file's
    whole text and splits it with Python's `str.splitlines`, substituting a
    single empty line for an empty result, and writes `'\n'.join(lines)`. */
module TextFile {
  import opened Strings

  /** The characters Python's `str.splitlines` treats as line boundaries
      (`\r\n` is one boundary made of two of them). */
  predicate IsLineBreak(c: char)
  {
    c in {'\n', '\r', '\U{0B}', '\U{0C}', '\U{1C}', '\U{1D}', '\U{1E}', '\U{85}', '\U{2028}', '\U{2029}'}
  }

  /** A line as the buffer holds it: no boundary character inside. */
  predicate IsLine(s: string)
  {
    forall k :: 0 <= k < |s| ==> !IsLineBreak(s[k])
  }

  /** The index of the first boundary character at or after `i`, or `|s|`. */
  function LineEnd(s: string, i: nat): (e: nat)
    requires i <= |s|
    ensures i <= e <= |s|
    ensures e < |s| ==> IsLineBreak(s[e])
    ensures forall k :: i <= k < e ==> !IsLineBreak(s[k])
    decreases |s| - i
  {
    if i == |s| || IsLineBreak(s[i]) then i else LineEnd(s, i + 1)
  }

  /** How many characters the boundary at `i` takes: two for `\r\n`. */
  function BreakWidth(s: string, i: nat): nat
    requires i < |s|
  {
    if s[i] == '\r' && i + 1 < |s| && s[i + 1] == '\n' then 2 else 1
  }

  /** Python's `str.splitlines()`: the text between boundaries, with no empty
      element after a final boundary. */
  function SplitLines(s: string): (r: seq<string>)
    ensures s == [] <==> r == []
    ensures forall k :: 0 <= k < |r| ==> IsLine(r[k])
    decreases |s|
  {
    if s == [] then []
    else
      var e := LineEnd(s, 0);
      if e == |s| then [s]
      else [s[..e]] + SplitLines(s[e + BreakWidth(s, e)..])
  }

  /** The buffer the editor starts with for a file's text. */
  function Load(text: string): (lines: seq<string>)
    ensures |lines| >= 1
    ensures forall k :: 0 <= k < |lines| ==> IsLine(lines[k])
    ensures text == [] ==> lines == [""]
  {
    var split := SplitLines(text);
    if split == [] then [""] else split
  }

  /** The text the editor writes for a buffer: the lines separated by
      newlines. An empty buffer and a buffer of one empty line both give
      the empty text. */
  function Serialize(lines: seq<string>): (r: string)
    ensures |lines| >= 1 ==> lines[0] <= r
    ensures |lines| >= 2 ==> (lines[0] + "\n") <= r
    ensures |lines| <= 1 && (lines == [] || lines[0] == "") ==> r == ""
  {
    JoinWithEnds(lines, "\n");
    JoinWith(lines, "\n")
  }

  /** Splitting a saved buffer whose last line is not empty gives the
      buffer back. */
  lemma {:induction false} SplitSerialized(lines: seq<string>)
    requires |lines| >= 1 && lines[|lines| - 1] != ""
    requires forall k :: 0 <= k < |lines| ==> IsLine(lines[k])
    ensures SplitLines(Serialize(lines)) == lines
    decreases |lines|
  {
    var head := lines[0];
    if |lines| == 1 {
      assert LineEnd(head, 0) == |head|;
    } else {
      var rest := lines[1..];
      var text := Serialize(lines);
      assert text == head + "\n" + Serialize(rest);
      assert text[..|head|] == head;
      assert text[|head|] == '\n';
      assert forall k :: 0 <= k < |head| ==> text[k] == head[k];
      assert LineEnd(text, 0) == |head| by {
        LineEndAt(text, 0, |head|);
      }
      assert BreakWidth(text, |head|) == 1;
      assert text[|head| + 1..] == Serialize(rest);
      SplitSerialized(rest);
    }
  }

  /** `LineEnd` finds the first boundary. */
  lemma LineEndAt(s: string, i: nat, e: nat)
    requires i <= e <= |s|
    requires forall k :: i <= k < e ==> !IsLineBreak(s[k])
    requires e == |s| || IsLineBreak(s[e])
    ensures LineEnd(s, i) == e
    decreases e - i
  {
    if i < e {
      LineEndAt(s, i + 1, e);
    }
  }

  /** Saving and then loading gives the buffer back, provided the buffer's
      lines hold no boundary characters and it does not end in an empty
      line after other lines (that line would be lost, because a final
      boundary yields no element). */
  lemma LoadSerialized(lines: seq<string>)
    requires |lines| >= 1
    requires forall k :: 0 <= k < |lines| ==> IsLine(lines[k])
    requires |lines| == 1 || lines[|lines| - 1] != ""
    ensures Load(Serialize(lines)) == lines
  {
    if lines[|lines| - 1] != "" {
      SplitSerialized(lines);
    } else {
      assert Serialize(lines) == "";
    }
  }

  /** A final newline is dropped: the text with and without it loads to the
      same buffer, so saving after loading loses it. */
  lemma TrailingNewlineDropped(text: string)
    requires text != [] && !IsLineBreak(text[|text| - 1])
    ensures Load(text + "\n") == Load(text)
  {
    SplitLinesTrailingBreak(text);
  }

  lemma {:induction false} SplitLinesTrailingBreak(text: string)
    requires text != [] && !IsLineBreak(text[|text| - 1])
    ensures SplitLines(text + "\n") == SplitLines(text)
    decreases |text|
  {
    var t := text + "\n";
    var e := LineEnd(text, 0);
    assert e < |text| ==> IsLineBreak(text[e]);
    assert e != |text| - 1;
    assert forall k :: 0 <= k < |text| ==> t[k] == text[k];
    LineEndAt(t, 0, e);
    if e == |text| {
      assert BreakWidth(t, e) == 1;
      assert t[e + 1..] == [];
      assert t[..e] == text;
    } else {
      var w := BreakWidth(text, e);
      assert BreakWidth(t, e) == w;
      assert t[..e] == text[..e];
      assert e + w < |text|;
      assert t[e + w..] == text[e + w..] + "\n" by {
        assert t == text[..e + w] + (text[e + w..] + "\n");
      }
      SplitLinesTrailingBreak(text[e + w..]);
    }
  }

  /** Saving a buffer of two or more lines writes the first line, a newline
      and the rest. */
  lemma SerializeCons(head: string, tail: seq<string>)
    requires tail != []
    ensures Serialize([head] + tail) == head + "\n" + Serialize(tail)
  {
    assert ([head] + tail)[1..] == tail;
  }

  /** A text is the part before index `i`, the character at `i` and the
      part after it. */
  lemma SplitAround(text: string, i: nat)
    requires i < |text|
    ensures text == text[..i] + [text[i]] + text[i + 1..]
  {
    assert text[i..] == [text[i]] + text[i + 1..];
    assert text == text[..i] + text[i..];
  }

  /** Loading then saving gives the text back when its only boundaries are
      `\n` and it does not end with one. */
  lemma {:induction false} SerializeLoaded(text: string)
    requires forall k :: 0 <= k < |text| ==> IsLineBreak(text[k]) ==> text[k] == '\n'
    requires text == [] || text[|text| - 1] != '\n'
    ensures Serialize(Load(text)) == text
    decreases |text|
  {
    if text != [] {
      var e := LineEnd(text, 0);
      if e < |text| {
        var rest := text[e + 1..];
        assert BreakWidth(text, e) == 1;
        assert rest != [];
        var head, tail := text[..e], SplitLines(rest);
        SerializeLoaded(rest);
        assert Load(rest) == tail;
        assert Load(text) == [head] + tail;
        SerializeCons(head, tail);
        assert text[e] == '\n';
        SplitAround(text, e);
      }
    }
  }
}

=== FILE: wrap.dfy ===
/** Soft wrapping: how the editor cuts each buffer line into display
    segments of at most the text width, flattens them into one list of rows
    tagged with the line they came from, and finds the row that holds the
    cursor. */
module Wrap {
  import opened Optional
  import opened Strings

  /** `[s[i:i + width] for i in range(0, len(s), width)]` for a positive
      width: consecutive fixed-size pieces, the last one possibly shorter. */
  function Chunks(s: string, width: nat): (r: seq<string>)
    requires width > 0
    ensures JoinWith(r, "") == s
    ensures forall k :: 0 <= k < |r| ==> 0 < |r[k]| <= width
    ensures forall k :: 0 <= k < |r| - 1 ==> |r[k]| == width
    ensures s == [] <==> r == []
    decreases |s|
  {
    if s == [] then []
    else if |s| <= width then [s]
    else
      var rest := Chunks(s[width..], width);
      var r := [s[..width]] + rest;
      assert r[1..] == rest;
      assert JoinWith(r, "") == s[..width] + "" + JoinWith(rest, "");
      assert s == s[..width] + s[width..];
      r
  }

  /** The pieces account for the whole length: all but the last have the
      full width. */
  lemma {:induction false} ChunksLength(s: string, width: nat)
    requires width > 0 && s != []
    ensures var r := Chunks(s, width); |s| == (|r| - 1) * width + |r[|r| - 1]|
    decreases |s|
  {
    if |s| > width {
      var rest := Chunks(s[width..], width);
      var r := Chunks(s, width);
      assert r == [s[..width]] + rest;
      ChunksLength(s[width..], width);
      MulStep(|rest| - 1, width);
      assert r[|r| - 1] == rest[|rest| - 1];
    }
  }

  lemma MulStep(n: int, width: int)
    ensures (n + 1) * width == n * width + width
  {
  }

  /** A split into `count` pieces of exactly `width` characters and a last
      piece of 1 to `width` characters is a split into `ceil(|s| / width)`
      pieces. */
  lemma CeilCount(len: nat, count: nat, last: nat, width: nat)
    requires width > 0 && count > 0 && 0 < last <= width
    requires len == (count - 1) * width + last
    ensures count == (len + width - 1) / width
  {
    var q := count - 1;
    assert len + width - 1 == q * width + width + (last - 1);
    MulStep(q, width);
    assert len + width - 1 == count * width + (last - 1);
    DivOfSum(count, width, last - 1);
  }

  lemma DivOfSum(q: nat, width: nat, r: nat)
    requires width > 0 && r < width
    ensures (q * width + r) / width == q
  {
    var n := q * width + r;
    DivUnique(n / width, n % width, q, r, width);
  }

  /** Quotient and remainder are unique. */
  lemma DivUnique(q1: int, r1: int, q2: int, r2: int, width: int)
    requires width > 0 && 0 <= r1 < width && 0 <= r2 < width
    requires q1 * width + r1 == q2 * width + r2
    ensures q1 == q2
  {
    if q1 > q2 {
      assert q1 * width - q2 * width == (q1 - q2) * width;
      MulAtLeast(q1 - q2, width);
    } else if q2 > q1 {
      assert q2 * width - q1 * width == (q2 - q1) * width;
      MulAtLeast(q2 - q1, width);
    }
  }

  lemma MulAtLeast(d: int, width: int)
    requires d >= 1 && width > 0
    ensures d * width >= width
  {
    MulStep(d - 1, width);
    assert (d - 1) * width >= 0;
  }

  /** Python's `word_wrap(line, width)`: a line no longer than the width is
      one segment; a longer one is cut into `Chunks`. A width of zero makes
      `range` raise for a non-empty line (`None`); a negative width yields
      no segment at all. */
  function WordWrap(line: string, width: int): (r: Option<seq<string>>)
    ensures r == None <==> width == 0 && |line| > 0
    ensures width < 0 ==> r == Some([])
    ensures width == 0 && line == [] ==> r == Some([line])
    ensures width > 0 ==> r.Some? && JoinWith(r.value, "") == line
    ensures width > 0 ==> r.Some? && r.value != []
    ensures width > 0 ==> r.Some? && forall k :: 0 <= k < |r.value| ==> |r.value[k]| <= width
    ensures width > 0 ==> r.Some? && forall k :: 0 <= k < |r.value| - 1 ==> |r.value[k]| == width
  {
    if |line| > width then
      if width > 0 then Some(Chunks(line, width))
      else if width == 0 then None
      else Some([])
    else Some([line])
  }

  /** For a positive width, `word_wrap` gives `ceil(len / width)` pieces
      (one for a line no longer than the width), and the pieces before the
      last account for `width` characters each. */
  lemma WordWrapCount(line: string, width: int)
    requires width > 0
    ensures var r := WordWrap(line, width).value;
      && |r| == (if |line| <= width then 1 else (|line| + width - 1) / width)
      && |line| == (|r| - 1) * width + |r[|r| - 1]|
  {
    if |line| > width {
      var chunks := Chunks(line, width);
      ChunksLength(line, width);
      CeilCount(|line|, |chunks|, |chunks[|chunks| - 1]|, width);
    }
  }

  /** One display row: a piece of buffer line `row`. */
  datatype Segment = Segment(row: nat, text: string)

  /** The segments of one line, each tagged with that line's index. */
  function Tag(row: nat, chunks: seq<string>): (r: seq<Segment>)
    ensures |r| == |chunks|
    ensures forall k :: 0 <= k < |r| ==> r[k] == Segment(row, chunks[k])
  {
    seq(|chunks|, k requires 0 <= k < |chunks| => Segment(row, chunks[k]))
  }

  /** The display list built by the render loop: the segments of every line
      in buffer order. `None` when wrapping some line raises. */
  function Flatten(lines: seq<string>, width: int): (r: Option<seq<Segment>>)
    ensures width > 0 ==> r.Some?
    ensures r.Some? ==> forall m :: 0 <= m < |r.value| ==> r.value[m].row < |lines|
    decreases |lines|
  {
    if lines == [] then Some([])
    else
      var n := |lines| - 1;
      match Flatten(lines[..n], width)
      case None => None
      case Some(segs) =>
        match WordWrap(lines[n], width)
        case None => None
        case Some(chunks) => Some(segs + Tag(n, chunks))
  }

  /** Building the display list raises exactly when the width is zero and
      some line is not empty. */
  lemma {:induction false} FlattenFails(lines: seq<string>, width: int)
    ensures Flatten(lines, width) == None <==> width == 0 && exists i :: 0 <= i < |lines| && lines[i] != []
    decreases |lines|
  {
    if lines != [] {
      var n := |lines| - 1;
      FlattenFails(lines[..n], width);
      if Flatten(lines[..n], width) == None {
        var i :| 0 <= i < n && lines[..n][i] != [];
        assert lines[i] != [];
      } else if width == 0 && lines[n] == [] {
        forall i | 0 <= i < |lines|
          ensures lines[i] == []
        {
          if i < n {
            assert lines[..n][i] == lines[i];
          }
        }
      }
    }
  }

  /** `chunks` are exactly the segments of line `i` in `segs`, starting at
      `start`: every earlier segment belongs to an earlier line and every
      later one to a later line. */
  ghost predicate HoldsLineAt(segs: seq<Segment>, start: nat, i: nat, chunks: seq<string>)
  {
    && start + |chunks| <= |segs|
    && segs[start..start + |chunks|] == Tag(i, chunks)
    && (forall m :: 0 <= m < start ==> segs[m].row < i)
    && (forall m :: start + |chunks| <= m < |segs| ==> segs[m].row > i)
  }

  lemma ExtendHoldsLine(front: seq<Segment>, tail: seq<Segment>, start: nat, i: nat, chunks: seq<string>)
    requires HoldsLineAt(front, start, i, chunks)
    requires forall m :: 0 <= m < |tail| ==> tail[m].row > i
    ensures HoldsLineAt(front + tail, start, i, chunks)
  {
    var segs := front + tail;
    assert segs[start..start + |chunks|] == front[start..start + |chunks|];
    forall m | start + |chunks| <= m < |segs|
      ensures segs[m].row > i
    {
      if m >= |front| {
        assert segs[m] == tail[m - |front|];
      }
    }
  }

  lemma LastHoldsLine(front: seq<Segment>, i: nat, chunks: seq<string>)
    requires forall m :: 0 <= m < |front| ==> front[m].row < i
    ensures HoldsLineAt(front + Tag(i, chunks), |front|, i, chunks)
  {
    var segs := front + Tag(i, chunks);
    assert segs[|front|..|front| + |chunks|] == Tag(i, chunks);
  }

  /** Each line's segments sit together in the display list, in order, right
      after the segments of all earlier lines and before those of all later
      lines. */
  lemma {:induction false} FlattenLine(lines: seq<string>, width: int, i: nat)
    requires width > 0 && i < |lines|
    ensures Flatten(lines, width).Some? && Flatten(lines[..i], width).Some?
    ensures HoldsLineAt(Flatten(lines, width).value, |Flatten(lines[..i], width).value|, i,
                        WordWrap(lines[i], width).value)
    decreases |lines|, 1
  {
    if i < |lines| - 1 {
      FlattenEarlierLine(lines, width, i);
    } else {
      FlattenLastLine(lines, width);
    }
  }

  lemma FlattenLastLine(lines: seq<string>, width: int)
    requires width > 0 && lines != []
    ensures HoldsLineAt(Flatten(lines, width).value, |Flatten(lines[..|lines| - 1], width).value|, |lines| - 1,
                        WordWrap(lines[|lines| - 1], width).value)
  {
    var n := |lines| - 1;
    FlattenSnoc(lines, width);
    LastHoldsLine(Flatten(lines[..n], width).value, n, WordWrap(lines[n], width).value);
  }

  /** The display list of `lines` is that of all but the last line followed
      by the last line's segments. */
  lemma FlattenSnoc(lines: seq<string>, width: int)
    requires width > 0 && lines != []
    ensures Flatten(lines, width).value ==
      Flatten(lines[..|lines| - 1], width).value + Tag(|lines| - 1, WordWrap(lines[|lines| - 1], width).value)
  {
    var n := |lines| - 1;
    var front := Flatten(lines[..n], width).value;
    var last := WordWrap(lines[n], width).value;
    assert Flatten(lines[..n], width) == Some(front) && WordWrap(lines[n], width) == Some(last);
  }

  lemma {:induction false} FlattenEarlierLine(lines: seq<string>, width: int, i: nat)
    requires width > 0 && i < |lines| - 1
    ensures Flatten(lines, width).Some? && Flatten(lines[..i], width).Some?
    ensures HoldsLineAt(Flatten(lines, width).value, |Flatten(lines[..i], width).value|, i,
                        WordWrap(lines[i], width).value)
    decreases |lines|, 0
  {
    var n := |lines| - 1;
    FlattenSnoc(lines, width);
    var front := Flatten(lines[..n], width).value;
    var tail := Tag(n, WordWrap(lines[n], width).value);
    var start := |Flatten(lines[..i], width).value|;
    var chunks := WordWrap(lines[i], width).value;
    FlattenLine(lines[..n], width, i);
    assert lines[..n][..i] == lines[..i];
    assert lines[..n][i] == lines[i];
    assert HoldsLineAt(front, start, i, chunks);
    ExtendHoldsLine(front, tail, start, i, chunks);
  }

  /** Where the render loop shows the cursor: the first segment of line
      `cursorY` whose length is at least the remaining column, together with
      that remaining column (the column minus the lengths of the line's
      earlier segments). Index 0 is the fallback when no segment qualifies. */
  datatype Placement = Placement(index: int, column: int)

  function ScanFrom(segs: seq<Segment>, i: nat, cursorY: int, cursorX: int): Placement
    requires i <= |segs|
    decreases |segs| - i
  {
    if i == |segs| then Placement(0, cursorX)
    else if segs[i].row == cursorY && cursorX <= |segs[i].text| then Placement(i, cursorX)
    else if segs[i].row == cursorY then ScanFrom(segs, i + 1, cursorY, cursorX - |segs[i].text|)
    else ScanFrom(segs, i + 1, cursorY, cursorX)
  }

  function Locate(segs: seq<Segment>, cursorY: int, cursorX: int): Placement
  {
    ScanFrom(segs, 0, cursorY, cursorX)
  }

  /** The scan from `i` never raises the column. A non-zero index is a
      segment of the cursor's line at or after `i` long enough for the
      column left; when no segment from `i` on belongs to that line, the
      scan falls back to index 0 with the column unchanged. */
  lemma {:induction false} ScanFromFinds(segs: seq<Segment>, i: nat, cursorY: int, cursorX: int)
    requires i <= |segs|
    ensures ScanFrom(segs, i, cursorY, cursorX).column <= cursorX
    ensures
      var p := ScanFrom(segs, i, cursorY, cursorX);
      p.index != 0 ==> i <= p.index < |segs| && segs[p.index].row == cursorY && p.column <= |segs[p.index].text|
    ensures (forall m :: i <= m < |segs| ==> segs[m].row != cursorY) ==>
      ScanFrom(segs, i, cursorY, cursorX) == Placement(0, cursorX)
    decreases |segs| - i
  {
    if i < |segs| {
      if segs[i].row == cursorY && cursorX <= |segs[i].text| {
      } else if segs[i].row == cursorY {
        ScanFromFinds(segs, i + 1, cursorY, cursorX - |segs[i].text|);
      } else {
        ScanFromFinds(segs, i + 1, cursorY, cursorX);
      }
    }
  }

  /** `Locate` is the scan from the first segment. */
  lemma LocateFinds(segs: seq<Segment>, cursorY: int, cursorX: int)
    ensures Locate(segs, cursorY, cursorX).column <= cursorX
    ensures
      var p := Locate(segs, cursorY, cursorX);
      p.index != 0 ==> 0 < p.index < |segs| && segs[p.index].row == cursorY && p.column <= |segs[p.index].text|
    ensures (forall m :: 0 <= m < |segs| ==> segs[m].row != cursorY) ==>
      Locate(segs, cursorY, cursorX) == Placement(0, cursorX)
  {
    ScanFromFinds(segs, 0, cursorY, cursorX);
  }

  /** Segments of other lines do not affect the scan. */
  lemma {:induction false} ScanSkips(segs: seq<Segment>, i: nat, j: nat, cursorY: int, cursorX: int)
    requires i <= j <= |segs|
    requires forall m :: i <= m < j ==> segs[m].row != cursorY
    ensures ScanFrom(segs, i, cursorY, cursorX) == ScanFrom(segs, j, cursorY, cursorX)
    decreases j - i
  {
    if i < j {
      ScanSkips(segs, i + 1, j, cursorY, cursorX);
    }
  }

  /** The scan over the segments of the cursor's line, from its `k`-th
      segment on, with `x` columns left to place. */
  lemma {:induction false} ScanChunks(segs: seq<Segment>, start: nat, chunks: seq<string>, width: nat,
                                      cursorY: nat, k: nat, x: int)
    requires width > 0 && k < |chunks|
    requires start + |chunks| <= |segs| && segs[start..start + |chunks|] == Tag(cursorY, chunks)
    requires forall c :: 0 <= c < |chunks| - 1 ==> |chunks[c]| == width
    requires 0 <= x <= (|chunks| - 1 - k) * width + |chunks[|chunks| - 1]|
    requires k > 0 ==> x > 0
    ensures
      var p := ScanFrom(segs, start + k, cursorY, x);
      && start + k <= p.index < start + |chunks|
      && segs[p.index] == Segment(cursorY, chunks[p.index - start])
      && 0 <= p.column <= |chunks[p.index - start]|
      && x == (p.index - start - k) * width + p.column
      && (p.index > start ==> p.column > 0)
    decreases |chunks| - k
  {
    assert segs[start + k] == Tag(cursorY, chunks)[k];
    if x > |chunks[k]| {
      assert k < |chunks| - 1;
      MulStep(|chunks| - 1 - (k + 1), width);
      ScanChunks(segs, start, chunks, width, cursorY, k + 1, x - width);
      var p := ScanFrom(segs, start + k + 1, cursorY, x - width);
      MulStep(p.index - start - (k + 1), width);
    } else {
      assert (start + k - start - k) * width == 0;
    }
  }

  /** Display row `row` and column `column` of the display list `segs`, in
      which line `cursorY`'s segments start at `start`, show the logical
      cursor `(cursorY, cursorX)`: the row is a segment of line `cursorY`, the
      column lies within it, and `cursorX` is the segments of the line before
      it times the width plus the column. */
  ghost predicate ShowsIn(segs: seq<Segment>, start: nat, width: int, cursorY: nat, cursorX: int, row: int, column: int)
  {
    && start <= row < |segs|
    && segs[row].row == cursorY
    && 0 <= column <= |segs[row].text| <= width
    && cursorX == (row - start) * width + column
  }

  /** The scan over a display list holding line `cursorY` at `start`. */
  lemma LocateInLine(segs: seq<Segment>, start: nat, chunks: seq<string>, width: nat, cursorY: nat, cursorX: nat)
    requires width > 0 && chunks != [] && HoldsLineAt(segs, start, cursorY, chunks)
    requires forall c :: 0 <= c < |chunks| ==> |chunks[c]| <= width
    requires forall c :: 0 <= c < |chunks| - 1 ==> |chunks[c]| == width
    requires cursorX <= (|chunks| - 1) * width + |chunks[|chunks| - 1]|
    ensures
      var p := Locate(segs, cursorY, cursorX);
      && p.index < start + |chunks|
      && ShowsIn(segs, start, width, cursorY, cursorX, p.index, p.column)
      && (p.index > start ==> p.column > 0)
  {
    ScanSkips(segs, 0, start, cursorY, cursorX);
    ScanChunks(segs, start, chunks, width, cursorY, 0, cursorX);
    var p := ScanFrom(segs, start, cursorY, cursorX);
    assert segs[p.index] == Segment(cursorY, chunks[p.index - start]);
  }

  /** `ShowsIn` for the display list of `lines` at `width`. */
  ghost predicate Shows(lines: seq<string>, width: int, cursorY: nat, cursorX: int, row: int, column: int)
    requires width > 0 && cursorY < |lines|
  {
    ShowsIn(Flatten(lines, width).value, |Flatten(lines[..cursorY], width).value|, width, cursorY, cursorX, row, column)
  }

  /** The render loop places a cursor that is inside its line on a segment
      of that line, at column `cursorX - s * width` of its `s`-th segment. A
      cursor exactly at a wrap point is shown at the end of the earlier
      segment, not at the start of the next one. */
  lemma CursorPlacement(lines: seq<string>, width: int, cursorY: nat, cursorX: nat)
    requires width > 0 && cursorY < |lines| && cursorX <= |lines[cursorY]|
    ensures
      var p := Locate(Flatten(lines, width).value, cursorY, cursorX);
      && Shows(lines, width, cursorY, cursorX, p.index, p.column)
      && (p.index > |Flatten(lines[..cursorY], width).value| ==> p.column > 0)
  {
    FlattenLine(lines, width, cursorY);
    var segs := Flatten(lines, width).value;
    var start := |Flatten(lines[..cursorY], width).value|;
    var chunks := WordWrap(lines[cursorY], width).value;
    WordWrapCount(lines[cursorY], width);
    LocateInLine(segs, start, chunks, width, cursorY, cursorX);
  }

  /** `CursorPlacement`, for a row and column given by name. */
  lemma ShowsLocated(lines: seq<string>, width: int, cursorY: nat, cursorX: nat, row: int, column: int)
    requires width > 0 && cursorY < |lines| && cursorX <= |lines[cursorY]|
    requires row == Locate(Flatten(lines, width).value, cursorY, cursorX).index
    requires column == Locate(Flatten(lines, width).value, cursorY, cursorX).column
    ensures Shows(lines, width, cursorY, cursorX, row, column)
  {
    CursorPlacement(lines, width, cursorY, cursorX);
  }
}
